=== FILE: README.md ===
# Tutorial history model

A Dafny model of how pytch-build reads a tutorial out of a git repository.
It covers the commit classifier and history walker of
`pytchbuild/tutorialcompiler/fromgitrepo/tutorial_history.py`, and the
collection and release-tree checks of `pytchbuild/tutorialcompiler/gather_tutorials.py`.

A tutorial is a linear run of commits. It starts at a tip and follows first
parents back to a commit whose subject starts with `{base}`. Each commit is
classified from its subject line and from its diff against its first parent,
or against the empty tree for a root commit:

- a `{#slug}` tag names a commit;
- a diff of exactly one Modified delta, for `code.py` or `tutorial.md`, is a
  code or text change;
- a diff whose deltas all add files under `project-assets` adds assets.

A commit that adds assets and also changes anything else is rejected. From
the commit sequence the model derives:

- the tutorial's top-level directory and its file paths;
- snapshots of the code and text;
- the slug table;
- the list of all assets.

Several tutorials are gathered from a manifest into a name-keyed collection.
Their tips feed a release tree, whose entries are checked by index.

Files and modules:

- `results.dfy` (`Results`): `Option` and `Result`. A Python exception becomes `Err`. `Flatten` is `itertools.chain` over results.
- `dicts.dfy` (`Dicts`): Python dicts built by comprehensions. Later entries overwrite earlier ones, and a key keeps its first insertion position.
- `paths.dfy` (`Paths`): `str.split`, `pathlib` `parts` and `name`.
- `git_objects.dfy` (`GitObjects`): the object graph and the error taxonomy. It also holds `tree / path` lookup.
- `commit_classifier.dfy` (`CommitClassifier`): `ProjectAsset` and `ProjectCommit`.
- `history.dfy` (`History`): `ProjectHistory`.
- `gather.dfy` (`Gather`): `TutorialCollection`, `gathered_tip_oids`, `sole_tree_entry` and `verify_entry_type`.

In these details the model follows the code:

- The slug regex `\{\#([^ ]+)\}` is greedy. The slug therefore runs to the
  LAST `}` before the first space: `{#a}b} x` has slug `a}b`. It is not simply
  "a token without spaces".
- The asset test indexes `parts[1]`. It runs only on Added deltas, because of
  the short-circuit `and`. So a non-base commit that adds a file at the top of
  the tree raises (`PathTooShort`) instead of being classified.
- Manifest rows may share a name. The code does not reject this. The last such
  row's history wins, and the name keeps the position of its first row. Every
  row's history is still built, so any row can make gathering fail.
- `verify_entry_type` compares against `GIT_FILEMODE_BLOB` exactly. An
  executable recipe blob is therefore rejected.

## Model

| member | source | states |
|---|---|---|
| `CommitClassifier.AssetFromDelta` | pytchbuild/tutorialcompiler/fromgitrepo/tutorial_history.py:55-62 | a non-Added delta is rejected; an Added one yields its new path and the content of its new blob, failing only when that blob is missing |
| `CommitClassifier.MessageSubject` | pytchbuild/tutorialcompiler/fromgitrepo/tutorial_history.py:121-123 | the subject is the prefix of the message up to (not including) the first newline, or the whole message when it has none |
| `Paths.Split` | pytchbuild/tutorialcompiler/fromgitrepo/tutorial_history.py:123 | the pieces contain no separator, and the first piece is the prefix ending at the first separator |
| `Paths.JoinSplit` | pytchbuild/tutorialcompiler/fromgitrepo/tutorial_history.py:123 | joining the pieces of a split with the separator gives back the original text |
| `CommitClassifier.MaybeIdentifierSlug` | pytchbuild/tutorialcompiler/fromgitrepo/tutorial_history.py:125-128 | a slug exists iff the subject starts with `{#`, one or more non-space characters and `}`; the slug is the text between `{#` and the last such closing brace (greedy match) |
| `CommitClassifier.IdentifierSlug` | pytchbuild/tutorialcompiler/fromgitrepo/tutorial_history.py:134-138 | succeeds iff the commit has a slug, and then returns exactly the greedy slug of the subject (so `{#a}b} x` gives `a}b`, never `a`), which appears as `{#slug}` at the start of the subject and contains no space; otherwise raises naming the commit |
| `CommitClassifier.BaseIsNeverTagged` | pytchbuild/tutorialcompiler/fromgitrepo/tutorial_history.py:125-142 | a subject starting with `{base}` never carries a slug |
| `CommitClassifier.IsBase` | pytchbuild/tutorialcompiler/fromgitrepo/tutorial_history.py:140-142 | a commit is base iff its whole message (not only its subject line) starts with `{base}`, since the marker holds no newline |
| `CommitClassifier.SoleModifyAgainstParent` | pytchbuild/tutorialcompiler/fromgitrepo/tutorial_history.py:207-215 | fails with one error when the diff does not have exactly one delta and with another when that delta is not Modified; otherwise returns it |
| `CommitClassifier.ModifiesSingleFile` | pytchbuild/tutorialcompiler/fromgitrepo/tutorial_history.py:144-151 | never fails; true iff the diff is a single Modified delta whose old path's base name is the target |
| `CommitClassifier.SingleFileRolesExclusive` | pytchbuild/tutorialcompiler/fromgitrepo/tutorial_history.py:168-174 | a diff of other than one delta modifies neither `code.py` nor `tutorial.md`, and no commit modifies both |
| `Paths.PartsOfChild` | pytchbuild/tutorialcompiler/fromgitrepo/tutorial_history.py:281-289 | a path `dir/file` of two components has exactly those parts and base name `file` |
| `CommitClassifier.PathIsAProjectAsset` | pytchbuild/tutorialcompiler/fromgitrepo/tutorial_history.py:176-178 | raises iff the path has fewer than two components; otherwise true iff the second component is `project-assets` |
| `CommitClassifier.PartitionDeltas` | pytchbuild/tutorialcompiler/fromgitrepo/tutorial_history.py:191-199 | the deltas split into asset-adding and other deltas, every delta in one group; the first Added delta with a one-component path raises instead |
| `CommitClassifier.AddsProjectAssets` | pytchbuild/tutorialcompiler/fromgitrepo/tutorial_history.py:180-205 | a base commit never adds assets; otherwise a mixed diff raises, and the answer is true iff some delta adds an asset; true exactly when the diff is non-empty and every delta adds an asset |
| `CommitClassifier.AssetsFromDeltas` | pytchbuild/tutorialcompiler/fromgitrepo/tutorial_history.py:219-221 | one asset per delta in order, or the error of the FIRST delta that yields none, as the list comprehension raises |
| `CommitClassifier.AddedAssets` | pytchbuild/tutorialcompiler/fromgitrepo/tutorial_history.py:217-223 | empty unless the commit adds assets (always for a base commit); otherwise one asset per delta in delta order at the delta's new path, or the missing-object error of the first delta whose blob is absent; every asset lies in the asset directory, and the not-Added error never arises |
| `CommitClassifier.AssetCommitModifiesNoFile` | pytchbuild/tutorialcompiler/fromgitrepo/tutorial_history.py:180-215 | a commit that adds assets modifies neither the code nor the tutorial text |
| `CommitClassifier.CodePatchAgainstParent` | pytchbuild/tutorialcompiler/fromgitrepo/tutorial_history.py:225-233 | fails with the usage error exactly when the commit does not modify `code.py`; otherwise yields the old and new code of its sole delta |
| `CommitClassifier.SummaryLabel` | pytchbuild/tutorialcompiler/fromgitrepo/tutorial_history.py:102-115 | labels are chosen in order of precedence: a slug gives the tagged label; otherwise a `code.py` change gives the untagged-code label; otherwise a base commit gives BASE; otherwise the asset test's error, or the first unreadable asset's error, is raised, and asset commits get an assets label listing the diff's new paths in order; otherwise a `tutorial.md` change gives the text label; the label is unknown exactly when no role holds |
| `CommitClassifier.UnknownRenderingIsDistinct` | pytchbuild/tutorialcompiler/fromgitrepo/tutorial_history.py:102-115 | the text `?? unknown ??` is rendered by the unknown label and by no other |
| `CommitClassifier.RenderLabel` | pytchbuild/tutorialcompiler/fromgitrepo/tutorial_history.py:103-115 | the rendering is never empty; only a tagged label renders with a leading `#`, and the slug is what follows it |
| `History.LoadCommit` | pytchbuild/tutorialcompiler/fromgitrepo/tutorial_history.py:90-93 | loading succeeds iff the id is in the database, and yields the commit stored under it |
| `History.Ancestors` | pytchbuild/tutorialcompiler/fromgitrepo/tutorial_history.py:247-253 | the walk from a commit missing from the database raises for that id; a non-empty result starts with the commit stored under the start id, ends at a base commit and avoids the visited commits; coming back to a visited commit is a cycle; a non-base commit without a parent raises `NoParent` for that commit, and one whose first parent is missing raises `MissingObject` for the parent |
| `History.AncestorsSound` | pytchbuild/tutorialcompiler/fromgitrepo/tutorial_history.py:247-253 | whatever the walk returns is a linear ancestry avoiding the commits already visited |
| `History.AncestryHasNoRepeats` | pytchbuild/tutorialcompiler/fromgitrepo/tutorial_history.py:247-253 | no commit occurs twice in a first-parent ancestry that ends at its first base commit |
| `History.AncestorsComplete` | pytchbuild/tutorialcompiler/fromgitrepo/tutorial_history.py:247-253 | when a linear ancestry exists, the walk returns exactly it |
| `History.CommitLinearAncestors` | pytchbuild/tutorialcompiler/fromgitrepo/tutorial_history.py:247-253 | the result starts at the tip, each later commit is the first parent of the one before, it ends at a base commit and no earlier commit is base; an unknown tip raises for the tip; a parentless non-base tip raises `NoParent` for the tip, and a non-base tip whose first parent is missing raises `MissingObject` for that parent |
| `History.WalkIsExact` | pytchbuild/tutorialcompiler/fromgitrepo/tutorial_history.py:247-253 | the walk returns `s` iff `s` is the tip's linear ancestry, so it fails iff none exists (e.g. a parentless non-base commit is reached) |
| `History.AncestryExtends` | pytchbuild/tutorialcompiler/fromgitrepo/tutorial_history.py:247-253 | a non-base commit followed by its first parent's linear ancestry is a linear ancestry |
| `History.DeadEndChainHasNoRepeats` | pytchbuild/tutorialcompiler/fromgitrepo/tutorial_history.py:247-253 | a base-free first-parent chain ending at a parentless commit or at a missing first parent visits no commit twice |
| `History.AncestorsStop` | pytchbuild/tutorialcompiler/fromgitrepo/tutorial_history.py:247-253 | a walk along a base-free chain of distinct, unvisited commits raises exactly the error at which the chain stops: no parent, a missing parent, or a parent already visited |
| `History.AncestorsFailureChain` | pytchbuild/tutorialcompiler/fromgitrepo/tutorial_history.py:247-253 | every failed walk from a present, unvisited commit loaded a base-free chain of distinct commits and stopped after its last one with the error it raises |
| `History.WalkFailureIsExact` | pytchbuild/tutorialcompiler/fromgitrepo/tutorial_history.py:247-253 | the walk raises `e` iff the tip is missing and `e` names it, or some failed walk from the tip stops with `e` (a dead end or a revisited commit) |
| `History.WalkStopsAtDeadEnd` | pytchbuild/tutorialcompiler/fromgitrepo/tutorial_history.py:247-253 | a base-free first-parent chain from the tip ending at a parentless commit raises `NoParent` for that commit, and one ending at a missing first parent raises `MissingObject` for the parent |
| `History.BaseTipIsWholeHistory` | pytchbuild/tutorialcompiler/fromgitrepo/tutorial_history.py:248-249 | a base tip is a history of one commit |
| `History.FromTip` | pytchbuild/tutorialcompiler/fromgitrepo/tutorial_history.py:242-245 | a built history is non-empty and its first commit is the requested tip |
| `History.FromTipIsLinearAncestry` | pytchbuild/tutorialcompiler/fromgitrepo/tutorial_history.py:242-253 | a history is built iff the walk succeeds, and holds the tip's linear ancestry |
| `Results.Flatten` | pytchbuild/tutorialcompiler/fromgitrepo/tutorial_history.py:259-260 | flattening succeeds iff every part does, and otherwise fails with the first failing part's error |
| `Results.FlattenAppend` | pytchbuild/tutorialcompiler/fromgitrepo/tutorial_history.py:259-260 | flattening two runs of parts concatenates their flattenings |
| `History.ConcatAssets` | pytchbuild/tutorialcompiler/fromgitrepo/tutorial_history.py:255-260 | succeeds iff every commit's added assets can be read, and otherwise fails with the first commit's error, in tip-to-base order |
| `History.ConcatAssetsIsConcatenation` | pytchbuild/tutorialcompiler/fromgitrepo/tutorial_history.py:255-260 | one commit contributes its own added assets, and consecutive runs of commits contribute their assets concatenated in order |
| `History.ConcatAssetsAreAssetPaths` | pytchbuild/tutorialcompiler/fromgitrepo/tutorial_history.py:255-260 | every asset of the history lies in the `project-assets` directory |
| `History.NoAssetCommitsNoAssets` | pytchbuild/tutorialcompiler/fromgitrepo/tutorial_history.py:255-260 | a history none of whose commits adds assets has no assets |
| `History.AllProjectAssets` | pytchbuild/tutorialcompiler/fromgitrepo/tutorial_history.py:255-260 | the history's assets are those of `History.ConcatAssets`: the tip commit's added assets followed by those of the rest of the history; readable iff every commit's added assets are, and otherwise the error of the first failing commit, tip to base; every asset lies in the `project-assets` directory |
| `History.TopLevelDirectoryName` | pytchbuild/tutorialcompiler/fromgitrepo/tutorial_history.py:262-279 | succeeds iff the tip's tree has exactly one entry, and names it; otherwise raises with the entry count |
| `History.PythonCodePath` | pytchbuild/tutorialcompiler/fromgitrepo/tutorial_history.py:281-284 | exists iff the top-level directory can be named, and is `code.py` inside it; otherwise the directory error propagates |
| `History.TutorialTextPath` | pytchbuild/tutorialcompiler/fromgitrepo/tutorial_history.py:286-289 | exists iff the top-level directory can be named, and is `tutorial.md` inside it; otherwise the directory error propagates |
| `History.DerivedPathsNameTheTutorialFiles` | pytchbuild/tutorialcompiler/fromgitrepo/tutorial_history.py:281-289 | the code and text paths are `dir/code.py` and `dir/tutorial.md`: two components, the base names the single-file checks look for, and distinct |
| `GitObjects.ReadBlob` | pytchbuild/tutorialcompiler/fromgitrepo/tutorial_history.py:298-300 | reading a path yields a blob of the database or raises not-found / not-a-blob for that path |
| `GitObjects.ReadBlobInDirectory` | pytchbuild/tutorialcompiler/fromgitrepo/tutorial_history.py:310-312 | `dir/file` is not found when the tree lists no subtree called `dir`; otherwise it reads the blob that subtree lists under `file`, and is not found or not a blob as the subtree has it |
| `History.TutorialTextAtTip` | pytchbuild/tutorialcompiler/fromgitrepo/tutorial_history.py:291-300 | fails with the directory error when the top-level directory cannot be named; otherwise it is exactly the lookup of `dir/tutorial.md` in the tip's tree, which yields a blob of the database or a not-found / not-a-blob error for that path |
| `History.InitialCodeText` | pytchbuild/tutorialcompiler/fromgitrepo/tutorial_history.py:302-312 | fails with the directory error when the top-level directory cannot be named; otherwise it is exactly the lookup of `dir/code.py` in the BASE commit's tree, which yields a blob of the database or a not-found / not-a-blob error for that path |
| `History.FinalCodeText` | pytchbuild/tutorialcompiler/fromgitrepo/tutorial_history.py:314-323 | fails with the directory error when the top-level directory cannot be named; otherwise it is exactly the lookup of `dir/code.py` in the tip's tree, which yields a blob of the database or a not-found / not-a-blob error for that path |
| `History.TutorialTextFromTopLevelDirectory` | pytchbuild/tutorialcompiler/fromgitrepo/tutorial_history.py:291-300 | when the tip's sole entry is not a subtree the tutorial text is not found; otherwise it is the `tutorial.md` blob that directory lists, not found when it lists no such file and not a blob when that entry is not one |
| `History.InitialCodeFromBaseDirectory` | pytchbuild/tutorialcompiler/fromgitrepo/tutorial_history.py:302-312 | when the BASE tree lists no subtree named after the tip's sole entry (a renamed directory) the initial code is not found; otherwise it is the `code.py` blob that base directory lists, not found when it lists no such file and not a blob when that entry is not one |
| `History.FinalCodeFromTopLevelDirectory` | pytchbuild/tutorialcompiler/fromgitrepo/tutorial_history.py:314-323 | when the tip's sole entry is not a subtree the final code is not found; otherwise it is the `code.py` blob that directory lists, not found when it lists no such file and not a blob when that entry is not one |
| `Dicts.BuildHasKey` | pytchbuild/tutorialcompiler/fromgitrepo/tutorial_history.py:327-331 | a comprehension-built dict has a key iff some entry offers it |
| `Dicts.BuildLastWins` | pytchbuild/tutorialcompiler/fromgitrepo/tutorial_history.py:327-331 | each key of a comprehension-built dict holds the value of the last entry offering it |
| `Dicts.BuildKeepsFirstOrder` | pytchbuild/tutorialcompiler/gather_tutorials.py:34-35 | the keys of a comprehension-built dict are in the order they were first offered |
| `History.SlugTableKeys` | pytchbuild/tutorialcompiler/fromgitrepo/tutorial_history.py:325-331 | the slug table has a key iff some commit of the history carries that slug |
| `History.SlugTableValues` | pytchbuild/tutorialcompiler/fromgitrepo/tutorial_history.py:325-331 | each slug in the table holds the last commit, in tip-to-base order, carrying it |
| `History.CommitFromSlug` | pytchbuild/tutorialcompiler/fromgitrepo/tutorial_history.py:325-331 | the table holds each slug once, has exactly the slugs the commits carry, and maps each to the last commit carrying it |
| `History.CommitForSlug` | pytchbuild/tutorialcompiler/fromgitrepo/tutorial_history.py:325-336 | raises the unknown-slug error iff no commit carries the slug; otherwise yields the commit carrying it that is nearest the base |
| `History.SlugResolvesToTaggedCommit` | pytchbuild/tutorialcompiler/fromgitrepo/tutorial_history.py:325-331 | every commit's slug resolves to a commit with that slug, and to that commit itself when no commit nearer the base shares it |
| `History.SlugNamesLastTaggedCommit` | pytchbuild/tutorialcompiler/fromgitrepo/tutorial_history.py:325-336 | a slug resolves to the last commit carrying it |
| `History.CodeTextFromSlug` | pytchbuild/tutorialcompiler/fromgitrepo/tutorial_history.py:333-338 | an unknown slug raises first; otherwise the top-level directory's error, or the file at `dir/code.py` read from the tree of the commit the slug names (not the tip's), which is a blob of the database |
| `History.CodeTextFromTaggedCommit` | pytchbuild/tutorialcompiler/fromgitrepo/tutorial_history.py:333-338 | a slug's code is the `code.py` blob in the directory of the slug commit's own tree named after the tip's sole entry, and is not found when that directory lists no such file |
| `History.CodeTextReadsTaggedTree` | pytchbuild/tutorialcompiler/fromgitrepo/tutorial_history.py:336-338 | a slug's code is the file at `dir/code.py` read from the tree of the last commit carrying the slug |
| `History.CodePatchForSlug` | pytchbuild/tutorialcompiler/fromgitrepo/tutorial_history.py:340-342 | an unknown slug raises; otherwise the result is the code change of the commit the slug names, so a commit that does not modify the code raises the usage error for that commit |
| `History.CodePatchOfTaggedCommit` | pytchbuild/tutorialcompiler/fromgitrepo/tutorial_history.py:340-342 | the patch a slug names is the code change of the last commit carrying that slug |
| `Gather.RowHistories` | pytchbuild/tutorialcompiler/gather_tutorials.py:34-35 | one history per manifest row in order, built from that row's tip; the first row whose history fails makes it fail |
| `Gather.FromManifest` | pytchbuild/tutorialcompiler/gather_tutorials.py:27-36 | succeeds iff every row's history can be built, and holds each name once; otherwise raises the error of the first row, in manifest order, whose history cannot be built |
| `Gather.ManifestNames` | pytchbuild/tutorialcompiler/gather_tutorials.py:34-35 | the collection's names are exactly the manifest's names |
| `Gather.ManifestLastRowWins` | pytchbuild/tutorialcompiler/gather_tutorials.py:34-35 | a name holds the history of the last row with that name |
| `Gather.ManifestFirstRowOrder` | pytchbuild/tutorialcompiler/gather_tutorials.py:34-35 | names are ordered by the position of their first row |
| `Gather.GatheredTipsFollowManifest` | pytchbuild/tutorialcompiler/gather_tutorials.py:63-65 | one tip per distinct name, in the order of the names' first rows, each the tip commit of the last row with that name |
| `Gather.GatheredTipOids` | pytchbuild/tutorialcompiler/gather_tutorials.py:63-65 | one tip id per tutorial, in the collection's order (what those tips are is stated by `Gather.GatheredTipsFollowManifest`) |
| `Gather.SoleTreeEntry` | pytchbuild/tutorialcompiler/gather_tutorials.py:74-78 | succeeds iff the commit's tree has exactly one entry, and returns it; otherwise raises naming the commit |
| `Gather.SoleEntryIsTopLevelDirectory` | pytchbuild/tutorialcompiler/gather_tutorials.py:74-78 | the sole tree entry of a tutorial's tip exists iff its top-level directory can be named, and has that name |
| `Gather.VerifyEntryType` | pytchbuild/tutorialcompiler/gather_tutorials.py:81-92 | passes iff the entry at index 0 is a plain blob and an entry at a positive index is a tree; raises the blob error at 0 and the tree error above 0 |
| `Gather.ReleaseTreeShape` | pytchbuild/tutorialcompiler/gather_tutorials.py:81-92 | every entry of a release tree passes iff the tree is empty or a plain blob followed only by trees |

## Left out

- Repository access (`pygit2.Repository`, `revparse_single`): the database is a value of maps, and a tip is given as a commit id.
- The diff computation (`diff_to_tree`): each commit carries its diff against its first parent's tree, or against the empty tree for a root commit.
- The textual patch (`old_blob.diff(new_blob)`): `CodePatchAgainstParent` yields the old and new code that would be diffed.
- UTF-8 decoding of snapshots: snapshots are the blob's bytes.
- Second and later parents: the walk follows first parents only, as the code does.
- `History.CommitLinearAncestors`: a first-parent cycle gives `AncestryCycle`. The code would loop for ever there. A cycle cannot arise in git's content-addressed graph, and when an ancestry exists the result is the code's (`WalkIsExact`).
- `Paths.Parts`: treats a leading `/` like any other separator, where `pathlib` keeps it as a part. Git diff paths are always relative.
- YAML loading of the manifest: it is a sequence of rows.
- ZIP writing, the HTML index (`write_to_zipfile`, `write_new_zipfile`) and `TutorialBundle`: output formats handled by collaborators.
- `create_signature` and the clock: ambient configuration.
- `commit_to_releases` is not part of this model, because it is not defined in the files modelled. Only the entry checks it relies on are modelled.
- `tip_oid_string` is not part of this model: `Gather.GatheredTipOids` uses the tip commit's id.
- `short_oid` and `__str__`: display only.
- `cached_property` memoisation: every attribute is a pure function, so caching changes nothing.
- The command-line entry points and `setup.py`.

=== FILE: commit_classifier.dfy ===
/** One commit of a tutorial's history and the roles read off it: the
    identifier slug and base marker in its subject line, whether it modifies
    exactly one of the tutorial's files, and whether it adds project assets. */
module CommitClassifier {
  import opened Results
  import opened GitObjects
  import Paths

  const ProjectAssetDirname: string := "project-assets"
  const CodeFileBasename: string := "code.py"
  const TutorialTextFileBasename: string := "tutorial.md"

  /** An image or sound file added to the tutorial's project. */
  datatype ProjectAsset = ProjectAsset(path: string, data: Bytes)

  /** Builds an asset from a delta: only an Added delta qualifies, and its new
      blob must be in the object database. */
  function AssetFromDelta(repo: Repo, delta: Delta): (r: Result<ProjectAsset, Error>)
    ensures delta.status != Added ==> r == Err(DeltaNotAdded)
    ensures delta.status == Added ==> (r.Ok? <==> delta.newFile.id in repo.blobs)
    ensures r.Ok? ==> r.value.path == delta.newFile.path && r.value.data == repo.blobs[delta.newFile.id]
  {
    if delta.status != Added then Err(DeltaNotAdded)
    else if delta.newFile.id !in repo.blobs then Err(MissingObject(delta.newFile.id))
    else Ok(ProjectAsset(delta.newFile.path, repo.blobs[delta.newFile.id]))
  }

  /** A commit of the tutorial together with its id. */
  datatype ProjectCommit = ProjectCommit(oid: Oid, commit: Commit)

  // ---------------------------------------------------------------------------
  // Subject line: identifier slug and base marker

  /** The first line of a commit message. */
  function MessageSubject(message: string): (r: string)
    ensures '\n' !in r
    ensures r <= message
    ensures |r| == |message| || message[|r|] == '\n'
  {
    Paths.Split(message, '\n')[0]
  }

  /** `s` starts with a match of `\{\#([^ ]+)\}` whose closing brace is at `k`:
      `{#`, then one or more characters other than a space, then `}`. */
  predicate SlugClosesAt(s: string, k: int) {
    3 <= k < |s| && s[..2] == "{#" && s[k] == '}' && forall j :: 2 <= j < k ==> s[j] != ' '
  }

  /** Scans `s` from `i` up to its first space, remembering the last closing
      brace seen so far (`last`); the regular expression's greedy `[^ ]+`
      backtracks to exactly that brace. */
  function ScanSlugClose(s: string, i: nat, last: Option<nat>): (r: Option<nat>)
    requires |s| >= 2 && s[..2] == "{#" && 2 <= i <= |s|
    requires forall j :: 2 <= j < i ==> s[j] != ' '
    requires last.Some? ==> SlugClosesAt(s, last.value) && last.value < i
    requires last.Some? ==> forall j :: last.value < j < i ==> s[j] != '}'
    requires last.None? ==> forall j :: 3 <= j < i ==> s[j] != '}'
    ensures r.Some? ==> SlugClosesAt(s, r.value)
    ensures r.Some? ==> forall k :: SlugClosesAt(s, k) ==> k <= r.value
    ensures r.None? ==> forall k :: !SlugClosesAt(s, k)
    decreases |s| - i
  {
    if i == |s| || s[i] == ' ' then last
    else ScanSlugClose(s, i + 1, if 3 <= i && s[i] == '}' then Some(i) else last)
  }

  /** The identifier slug of a subject line: the group captured by
      `\{\#([^ ]+)\}` when it matches at the start, which runs up to the last
      closing brace before the first space. */
  function MaybeIdentifierSlug(subject: string): (r: Option<string>)
    ensures r.Some? <==> exists k :: SlugClosesAt(subject, k)
    ensures r.Some? ==> SlugClosesAt(subject, |r.value| + 2) && r.value == subject[2..|r.value| + 2]
    ensures r.Some? ==> forall k :: SlugClosesAt(subject, k) ==> k <= |r.value| + 2
  {
    if |subject| >= 2 && subject[..2] == "{#" then
      match ScanSlugClose(subject, 2, None)
      case None => None
      case Some(k) => Some(subject[2..k])
    else
      None
  }

  function Slug(pc: ProjectCommit): Option<string> {
    MaybeIdentifierSlug(MessageSubject(pc.commit.message))
  }

  predicate HasIdentifierSlug(pc: ProjectCommit) {
    Slug(pc).Some?
  }

  /** The slug, or an error naming the commit when it has none. */
  function IdentifierSlug(pc: ProjectCommit): (r: Result<string, Error>)
    ensures r.Ok? <==> HasIdentifierSlug(pc)
    ensures r.Ok? ==> Slug(pc) == Some(r.value)
    ensures r.Ok? ==> "{#" + r.value + "}" <= MessageSubject(pc.commit.message) && ' ' !in r.value
    ensures r.Err? ==> r.error == NoIdentifierSlug(pc.oid)
  {
    match Slug(pc)
    case None => Err(NoIdentifierSlug(pc.oid))
    case Some(s) => Ok(s)
  }

  /** The subject line starts with the `{base}` marker; since the marker has
      no newline, that is the same as the whole message starting with it. */
  predicate IsBase(pc: ProjectCommit)
    ensures IsBase(pc) <==> "{base}" <= pc.commit.message
  {
    "{base}" <= MessageSubject(pc.commit.message)
  }

  /** The two markers exclude each other: a base commit never carries a slug. */
  lemma BaseIsNeverTagged(pc: ProjectCommit)
    ensures IsBase(pc) ==> !HasIdentifierSlug(pc)
  {
    var s := MessageSubject(pc.commit.message);
    if IsBase(pc) {
      assert s[1] == 'b';
      assert !(s[..2] == "{#") by { assert s[..2][1] == 'b'; }
    }
  }

  // ---------------------------------------------------------------------------
  // Single-file modifications

  /** The sole delta of the commit's diff, which must be a modification. */
  function SoleModifyAgainstParent(pc: ProjectCommit): (r: Result<Delta, Error>)
    ensures r.Ok? <==> |pc.commit.diff| == 1 && pc.commit.diff[0].status == Modified
    ensures r.Ok? ==> r.value == pc.commit.diff[0]
    ensures |pc.commit.diff| != 1 ==> r == Err(NotExactlyOneDelta(pc.oid))
    ensures |pc.commit.diff| == 1 && pc.commit.diff[0].status != Modified ==> r == Err(DeltaNotModified(pc.oid))
  {
    var diff := pc.commit.diff;
    if |diff| != 1 then Err(NotExactlyOneDelta(pc.oid))
    else if diff[0].status != Modified then Err(DeltaNotModified(pc.oid))
    else Ok(diff[0])
  }

  /** Whether the commit modifies exactly one file, named `targetBasename`;
      any other diff shape answers false rather than failing. */
  predicate ModifiesSingleFile(pc: ProjectCommit, targetBasename: string)
    ensures ModifiesSingleFile(pc, targetBasename) <==>
              |pc.commit.diff| == 1 && pc.commit.diff[0].status == Modified
              && Paths.BaseName(pc.commit.diff[0].oldFile.path) == targetBasename
  {
    match SoleModifyAgainstParent(pc)
    case Err(_) => false
    case Ok(delta) => Paths.BaseName(delta.oldFile.path) == targetBasename
  }

  predicate ModifiesTutorialText(pc: ProjectCommit) {
    ModifiesSingleFile(pc, TutorialTextFileBasename)
  }

  predicate ModifiesPythonCode(pc: ProjectCommit) {
    ModifiesSingleFile(pc, CodeFileBasename)
  }

  /** A diff of other than one delta modifies neither file, and no diff
      modifies both. */
  lemma SingleFileRolesExclusive(pc: ProjectCommit)
    ensures |pc.commit.diff| != 1 ==> !ModifiesPythonCode(pc) && !ModifiesTutorialText(pc)
    ensures !(ModifiesPythonCode(pc) && ModifiesTutorialText(pc))
  {
  }

  // ---------------------------------------------------------------------------
  // Asset additions

  /** Whether a path lies in the asset directory, i.e. its second component is
      `project-assets`; a path of fewer than two components has no second
      component and raises. */
  function PathIsAProjectAsset(path: string): (r: Result<bool, Error>)
    ensures r.Err? <==> |Paths.Parts(path)| < 2
    ensures r.Err? ==> r.error == PathTooShort(path)
    ensures r.Ok? ==> (r.value <==> Paths.Parts(path)[1] == ProjectAssetDirname)
  {
    var parts := Paths.Parts(path);
    if |parts| < 2 then Err(PathTooShort(path)) else Ok(parts[1] == ProjectAssetDirname)
  }

  predicate IsAssetPath(path: string) {
    var parts := Paths.Parts(path);
    |parts| >= 2 && parts[1] == ProjectAssetDirname
  }

  /** The delta adds a file under the asset directory. */
  predicate AddsAsset(d: Delta) {
    d.status == Added && IsAssetPath(d.newFile.path)
  }

  /** The delta adds a file whose path has no second component, so the asset
      test on it raises. */
  predicate AddsUnclassifiablePath(d: Delta) {
    d.status == Added && |Paths.Parts(d.newFile.path)| < 2
  }

  /** Some deltas add assets and some do something else. */
  predicate Mixed(ds: seq<Delta>) {
    (exists i :: 0 <= i < |ds| && AddsAsset(ds[i])) && (exists i :: 0 <= i < |ds| && !AddsAsset(ds[i]))
  }

  /** Splits deltas, in order, into those adding assets and the others; the
      asset test runs only on Added deltas, and the first one it cannot
      classify raises. */
  function PartitionDeltas(ds: seq<Delta>): (r: Result<(seq<Delta>, seq<Delta>), Error>)
    ensures r.Ok? <==> forall i :: 0 <= i < |ds| ==> !AddsUnclassifiablePath(ds[i])
    ensures r.Err? ==> exists i :: 0 <= i < |ds| && AddsUnclassifiablePath(ds[i])
                          && r.error == PathTooShort(ds[i].newFile.path)
                          && forall j :: 0 <= j < i ==> !AddsUnclassifiablePath(ds[j])
    ensures r.Ok? ==> |r.value.0| + |r.value.1| == |ds|
    ensures r.Ok? ==> forall d :: d in r.value.0 ==> d in ds && AddsAsset(d)
    ensures r.Ok? ==> forall d :: d in r.value.1 ==> d in ds && !AddsAsset(d)
    ensures r.Ok? ==> forall d :: d in ds ==> d in r.value.0 || d in r.value.1
  {
    if |ds| == 0 then Ok(([], []))
    else
      var d := ds[0];
      var isAsset :- if d.status == Added then PathIsAProjectAsset(d.newFile.path) else Ok(false);
      var rest :- PartitionDeltas(ds[1..]);
      assert forall i :: 1 <= i < |ds| ==> ds[i] == ds[1..][i - 1];
      if isAsset then Ok(([d] + rest.0, rest.1)) else Ok((rest.0, [d] + rest.1))
  }

  /** Whether the commit adds project assets. A base commit never does. Any
      other commit must be pure: it fails when it adds assets and also has
      other deltas, and otherwise adds assets iff some delta adds one. */
  function AddsProjectAssets(pc: ProjectCommit): (r: Result<bool, Error>)
    ensures IsBase(pc) ==> r == Ok(false)
    ensures !IsBase(pc) ==>
              (r.Ok? <==> (forall i :: 0 <= i < |pc.commit.diff| ==> !AddsUnclassifiablePath(pc.commit.diff[i]))
                          && !Mixed(pc.commit.diff))
    ensures !IsBase(pc) && r.Ok? ==> (r.value <==> exists i :: 0 <= i < |pc.commit.diff| && AddsAsset(pc.commit.diff[i]))
    ensures !IsBase(pc) && Mixed(pc.commit.diff)
            && (forall i :: 0 <= i < |pc.commit.diff| ==> !AddsUnclassifiablePath(pc.commit.diff[i]))
            ==> r == Err(MixedAssetCommit(pc.oid))
    ensures r == Ok(true) <==>
              !IsBase(pc) && |pc.commit.diff| > 0
              && forall i :: 0 <= i < |pc.commit.diff| ==> AddsAsset(pc.commit.diff[i])
  {
    if IsBase(pc) then Ok(false)
    else
      var ds := pc.commit.diff;
      var parts :- PartitionDeltas(ds);
      assert forall i :: 0 <= i < |ds| ==> ds[i] in ds;
      if |parts.0| > 0 && |parts.1| > 0 then
        assert parts.0[0] in parts.0 && parts.1[0] in parts.1;
        Err(MixedAssetCommit(pc.oid))
      else
        Ok(|parts.0| > 0)
  }

  /** The assets built from each delta, in order; the first delta that does
      not yield one raises. */
  function AssetsFromDeltas(repo: Repo, ds: seq<Delta>): (r: Result<seq<ProjectAsset>, Error>)
    ensures r.Ok? <==> forall i :: 0 <= i < |ds| ==> AssetFromDelta(repo, ds[i]).Ok?
    ensures r.Ok? ==> |r.value| == |ds|
    ensures r.Ok? ==> forall i :: 0 <= i < |ds| ==> r.value[i] == AssetFromDelta(repo, ds[i]).value
    ensures r.Err? ==> exists i :: 0 <= i < |ds| && AssetFromDelta(repo, ds[i]) == Err(r.error)
                          && forall j :: 0 <= j < i ==> AssetFromDelta(repo, ds[j]).Ok?
  {
    if |ds| == 0 then Ok([])
    else
      var first :- AssetFromDelta(repo, ds[0]);
      var rest :- AssetsFromDeltas(repo, ds[1..]);
      assert forall i :: 1 <= i < |ds| ==> ds[i] == ds[1..][i - 1];
      Ok([first] + rest)
  }

  /** The assets the commit adds: none unless it adds assets, and then one per
      delta, in delta order, each at the delta's new path. */
  function AddedAssets(repo: Repo, pc: ProjectCommit): (r: Result<seq<ProjectAsset>, Error>)
    ensures AddsProjectAssets(pc).Err? ==> r == Err(AddsProjectAssets(pc).error)
    ensures AddsProjectAssets(pc) == Ok(false) ==> r == Ok([])
    ensures IsBase(pc) ==> r == Ok([])
    ensures AddsProjectAssets(pc) == Ok(true) ==>
              (r.Ok? <==> forall i :: 0 <= i < |pc.commit.diff| ==> pc.commit.diff[i].newFile.id in repo.blobs)
    ensures r.Ok? && AddsProjectAssets(pc) == Ok(true) ==>
              |r.value| == |pc.commit.diff|
              && forall i :: 0 <= i < |r.value| ==>
                   r.value[i] == ProjectAsset(pc.commit.diff[i].newFile.path, repo.blobs[pc.commit.diff[i].newFile.id])
    ensures r.Err? && AddsProjectAssets(pc) == Ok(true) ==>
              exists i :: 0 <= i < |pc.commit.diff| && pc.commit.diff[i].newFile.id !in repo.blobs
                          && r.error == MissingObject(pc.commit.diff[i].newFile.id)
                          && forall j :: 0 <= j < i ==> pc.commit.diff[j].newFile.id in repo.blobs
    ensures r.Ok? ==> forall i :: 0 <= i < |r.value| ==> IsAssetPath(r.value[i].path)
    ensures r.Err? ==> r.error != DeltaNotAdded
  {
    var adds :- AddsProjectAssets(pc);
    if adds then AssetsFromDeltas(repo, pc.commit.diff) else Ok([])
  }

  /** A commit that adds assets has no other role that needs a single
      modification. */
  lemma AssetCommitModifiesNoFile(pc: ProjectCommit)
    requires AddsProjectAssets(pc) == Ok(true)
    ensures !ModifiesPythonCode(pc) && !ModifiesTutorialText(pc)
  {
    assert AddsAsset(pc.commit.diff[0]);
  }

  // ---------------------------------------------------------------------------
  // Code patch and label

  /** The old and new content of the code file, whose line diff is the patch. */
  datatype CodeChange = CodeChange(oldCode: Bytes, newCode: Bytes)

  /** The code change a commit makes: it fails unless the commit modifies
      exactly the code file, and then diffs that delta's old and new blobs. */
  function CodePatchAgainstParent(repo: Repo, pc: ProjectCommit): (r: Result<CodeChange, Error>)
    ensures !ModifiesPythonCode(pc) <==> r == Err(NotPythonCodeChange(pc.oid))
    ensures ModifiesPythonCode(pc) ==>
              (r.Ok? <==> pc.commit.diff[0].oldFile.id in repo.blobs && pc.commit.diff[0].newFile.id in repo.blobs)
    ensures r.Ok? ==> r.value == CodeChange(repo.blobs[pc.commit.diff[0].oldFile.id],
                                           repo.blobs[pc.commit.diff[0].newFile.id])
  {
    if !ModifiesPythonCode(pc) then Err(NotPythonCodeChange(pc.oid))
    else
      var delta := pc.commit.diff[0];
      if delta.oldFile.id !in repo.blobs then Err(MissingObject(delta.oldFile.id))
      else if delta.newFile.id !in repo.blobs then Err(MissingObject(delta.newFile.id))
      else Ok(CodeChange(repo.blobs[delta.oldFile.id], repo.blobs[delta.newFile.id]))
  }

  /** The role shown for a commit in diagnostics. */
  datatype Label =
    | Tagged(slug: string)
    | UntaggedPythonChange
    | BaseCommit
    | AssetsAdded(paths: seq<string>)
    | TutorialText
    | Unknown

  /** The label of a commit, by precedence: slug, code change, base, assets,
      tutorial text, otherwise unknown. A tagged, code-changing or base
      commit is labelled without classifying its assets, so it never fails. */
  function SummaryLabel(repo: Repo, pc: ProjectCommit): (r: Result<Label, Error>)
    ensures HasIdentifierSlug(pc) ==> r == Ok(Tagged(Slug(pc).value))
    ensures IsBase(pc) ==> r == Ok(BaseCommit) || r == Ok(UntaggedPythonChange)
    ensures !HasIdentifierSlug(pc) && ModifiesPythonCode(pc) ==> r == Ok(UntaggedPythonChange)
    ensures !HasIdentifierSlug(pc) && !ModifiesPythonCode(pc) && IsBase(pc) ==> r == Ok(BaseCommit)
    ensures !HasIdentifierSlug(pc) && !ModifiesPythonCode(pc) && !IsBase(pc) && AddsProjectAssets(pc).Err? ==>
              r == Err(AddsProjectAssets(pc).error)
    ensures !HasIdentifierSlug(pc) && !ModifiesPythonCode(pc) && !IsBase(pc) && AddsProjectAssets(pc) == Ok(true) ==>
              (r.Err? <==> AddedAssets(repo, pc).Err?)
              && (r.Err? ==> r.error == AddedAssets(repo, pc).error)
              && (r.Ok? ==> r.value.AssetsAdded?)
    ensures (!HasIdentifierSlug(pc) && !ModifiesPythonCode(pc) && !IsBase(pc) && AddsProjectAssets(pc) == Ok(false)
             && ModifiesTutorialText(pc)) ==> r == Ok(TutorialText)
    ensures r == Ok(Unknown) <==>
              !HasIdentifierSlug(pc) && !ModifiesPythonCode(pc) && !IsBase(pc)
              && AddsProjectAssets(pc) == Ok(false) && !ModifiesTutorialText(pc)
    ensures r.Ok? && r.value.AssetsAdded? ==>
              |r.value.paths| == |pc.commit.diff| > 0
              && forall i :: 0 <= i < |r.value.paths| ==> r.value.paths[i] == pc.commit.diff[i].newFile.path
    ensures r.Err? ==> AddsProjectAssets(pc).Err? || AddedAssets(repo, pc).Err?
  {
    if HasIdentifierSlug(pc) then
      BaseIsNeverTagged(pc);
      Ok(Tagged(Slug(pc).value))
    else if ModifiesPythonCode(pc) then Ok(UntaggedPythonChange)
    else if IsBase(pc) then Ok(BaseCommit)
    else
      var adds :- AddsProjectAssets(pc);
      if adds then
        var assets :- AddedAssets(repo, pc);
        Ok(AssetsAdded(seq(|assets|, i requires 0 <= i < |assets| => assets[i].path)))
      else if ModifiesTutorialText(pc) then Ok(TutorialText)
      else Ok(Unknown)
  }

  /** The quoted, comma-separated asset paths of an assets label. */
  function QuotedList(paths: seq<string>): string {
    if |paths| == 0 then ""
    else if |paths| == 1 then "\"" + paths[0] + "\""
    else "\"" + paths[0] + "\", " + QuotedList(paths[1..])
  }

  /** The text of a label. Only a tagged label starts with `#`, and the slug
      can be read back from the rest of its text. */
  function RenderLabel(role: Label): (r: string)
    ensures |r| > 0
    ensures r[0] == '#' <==> role.Tagged?
    ensures role.Tagged? ==> r[1..] == role.slug
  {
    match role
    case Tagged(slug) => "#" + slug
    case UntaggedPythonChange => "untagged-Python-change"
    case BaseCommit => "BASE"
    case AssetsAdded(paths) => "assets(" + QuotedList(paths) + ")"
    case TutorialText => "tutorial-text"
    case Unknown => "?? unknown ??"
  }

  /** The unknown label's text is produced by no other label, so the operator
      can tell an unclassified commit from every classified one. */
  lemma UnknownRenderingIsDistinct(role: Label)
    ensures RenderLabel(role) == "?? unknown ??" <==> role == Unknown
  {
    if role.Tagged? {
      assert RenderLabel(role)[0] == '#';
    } else if role.AssetsAdded? {
      assert RenderLabel(role)[0] == 'a';
    }
  }
}

=== FILE: dicts.dfy ===
/** Python dicts as the tutorial code builds them with comprehensions: the
    entries in insertion order, each key once. Assigning to a key already
    present keeps its position and replaces its value; a new key goes last. */
module Dicts {
  import opened Results

  /** A dict's entries in insertion order. */
  type Dict<K, V> = seq<(K, V)>

  predicate DistinctKeys<K(==), V>(d: Dict<K, V>) {
    forall i, j :: 0 <= i < j < |d| ==> d[i].0 != d[j].0
  }

  predicate HasKey<K(==), V>(d: Dict<K, V>, k: K) {
    exists i :: 0 <= i < |d| && d[i].0 == k
  }

  /** The position of `k` in `d`, or `|d|` when it is absent. */
  function KeyIndex<K(==), V>(d: Dict<K, V>, k: K): (r: nat)
    ensures r <= |d|
    ensures r < |d| ==> d[r].0 == k
    ensures forall j :: 0 <= j < r ==> d[j].0 != k
  {
    if |d| == 0 then 0
    else if d[0].0 == k then 0
    else 1 + KeyIndex(d[1..], k)
  }

  /** `d[k]`, or `None` where Python raises `KeyError`. */
  function Get<K(==), V>(d: Dict<K, V>, k: K): (r: Option<V>)
    ensures r.Some? <==> HasKey(d, k)
    ensures r.Some? ==> (k, r.value) in d
    ensures r.Some? && DistinctKeys(d) ==> forall i :: 0 <= i < |d| && d[i].0 == k ==> d[i].1 == r.value
  {
    var i := KeyIndex(d, k);
    if i < |d| then Some(d[i].1) else None
  }

  /** `d[k] = v`. */
  function Insert<K(==), V>(d: Dict<K, V>, k: K, v: V): (r: Dict<K, V>)
    requires DistinctKeys(d)
    ensures DistinctKeys(r)
    ensures HasKey(d, k) ==> |r| == |d|
    ensures !HasKey(d, k) ==> |r| == |d| + 1 && r[|d|] == (k, v)
    ensures forall i :: 0 <= i < |d| ==> r[i].0 == d[i].0
    ensures forall i :: 0 <= i < |d| ==> r[i].1 == if d[i].0 == k then v else d[i].1
  {
    var i := KeyIndex(d, k);
    if i < |d| then d[i := (k, v)] else d + [(k, v)]
  }

  /** The index of the first entry offering key `k`, or `|entries|`. */
  function FirstEntryIndex<K(==), V>(entries: seq<(Option<K>, V)>, k: K): (r: nat)
    ensures r <= |entries|
    ensures r < |entries| ==> entries[r].0 == Some(k)
    ensures forall j :: 0 <= j < r ==> entries[j].0 != Some(k)
  {
    if |entries| == 0 then 0
    else if entries[0].0 == Some(k) then 0
    else 1 + FirstEntryIndex(entries[1..], k)
  }

  /** Entry `i` offers key `k` and no later entry does. */
  predicate LastEntryFor<K(==), V>(entries: seq<(Option<K>, V)>, i: int, k: K) {
    0 <= i < |entries| && entries[i].0 == Some(k)
    && forall j :: i < j < |entries| ==> entries[j].0 != Some(k)
  }

  /** The dict a comprehension builds from `entries`, assigning them in order
      and skipping those whose key is `None` (filtered out by its `if`). */
  function Build<K(==), V>(entries: seq<(Option<K>, V)>): (r: Dict<K, V>)
    ensures DistinctKeys(r)
  {
    if |entries| == 0 then []
    else
      var d := Build(entries[..|entries| - 1]);
      match entries[|entries| - 1].0
      case None => d
      case Some(k) => Insert(d, k, entries[|entries| - 1].1)
  }

  /** Dropping the last entry keeps the first offer of every key offered
      before it. */
  lemma FirstEntryIndexOfPrefix<K, V>(entries: seq<(Option<K>, V)>, k: K)
    requires |entries| > 0
    ensures var n := |entries| - 1;
            if FirstEntryIndex(entries[..n], k) < n
            then FirstEntryIndex(entries, k) == FirstEntryIndex(entries[..n], k)
            else FirstEntryIndex(entries, k) == if entries[n].0 == Some(k) then n else |entries|
  {
    var n := |entries| - 1;
    assert forall j :: 0 <= j < n ==> entries[..n][j] == entries[j];
  }

  /** The built dict has a key iff some entry offers it. */
  lemma {:induction false} BuildHasKey<K, V>(entries: seq<(Option<K>, V)>)
    ensures forall k :: HasKey(Build(entries), k) <==> FirstEntryIndex(entries, k) < |entries|
  {
    if |entries| == 0 {
      assert Build(entries) == [];
    } else {
      var n := |entries| - 1;
      var d' := Build(entries[..n]);
      var d := Build(entries);
      BuildHasKey(entries[..n]);
      forall k' ensures HasKey(d, k') <==> FirstEntryIndex(entries, k') < |entries| {
        FirstEntryIndexOfPrefix(entries, k');
        match entries[n].0
        case None =>
          assert d == d';
        case Some(k) =>
          if HasKey(d', k') {
            var i :| 0 <= i < |d'| && d'[i].0 == k';
            assert d[i].0 == k';
          }
          if HasKey(d, k') && k' != k {
            var i :| 0 <= i < |d| && d[i].0 == k';
            assert i < |d'| && d'[i].0 == k';
          }
          if k' == k && !HasKey(d', k) {
            assert d[|d'|].0 == k;
          }
      }
    }
  }

  /** Each key of the built dict holds the value of the last entry offering it. */
  lemma {:induction false} BuildLastWins<K, V>(entries: seq<(Option<K>, V)>)
    ensures forall i :: 0 <= i < |Build(entries)| ==>
              exists j :: LastEntryFor(entries, j, Build(entries)[i].0) && Build(entries)[i].1 == entries[j].1
  {
    if |entries| == 0 {
      assert Build(entries) == [];
    } else {
      var n := |entries| - 1;
      var prefix := entries[..n];
      var d' := Build(prefix);
      var d := Build(entries);
      BuildLastWins(prefix);
      forall i | 0 <= i < |d|
        ensures exists j :: LastEntryFor(entries, j, d[i].0) && d[i].1 == entries[j].1
      {
        if entries[n].0 == Some(d[i].0) {
          assert d[i].1 == entries[n].1;
          assert LastEntryFor(entries, n, d[i].0);
        } else {
          assert i < |d'| && d[i] == d'[i];
          var j :| LastEntryFor(prefix, j, d'[i].0) && d'[i].1 == prefix[j].1;
          assert prefix[j] == entries[j];
          assert LastEntryFor(entries, j, d[i].0);
        }
      }
    }
  }

  /** Building one more entry keeps every key where it was and appends at most
      the new entry's key, when it was not there before. */
  lemma BuildExtends<K, V>(entries: seq<(Option<K>, V)>)
    requires |entries| > 0
    ensures var n := |entries| - 1;
            var d', d := Build(entries[..n]), Build(entries);
            && |d'| <= |d| <= |d'| + 1
            && (forall i :: 0 <= i < |d'| ==> d[i].0 == d'[i].0)
            && (|d| == |d'| + 1 ==> entries[n].0 == Some(d[|d'|].0) && !HasKey(d', d[|d'|].0))
  {
  }

  /** One step of the ordering proof, for a dict `d` that extends `d'` by at
      most the last entry's key. */
  lemma FirstOrderStep<K, V>(entries: seq<(Option<K>, V)>, d': Dict<K, V>, d: Dict<K, V>, a: int, b: int)
    requires |entries| > 0
    requires forall k :: HasKey(d', k) <==> FirstEntryIndex(entries[..|entries| - 1], k) < |entries| - 1
    requires forall x, y :: 0 <= x < y < |d'| ==>
               FirstEntryIndex(entries[..|entries| - 1], d'[x].0) < FirstEntryIndex(entries[..|entries| - 1], d'[y].0)
    requires |d'| <= |d| <= |d'| + 1
    requires forall i :: 0 <= i < |d'| ==> d[i].0 == d'[i].0
    requires |d| == |d'| + 1 ==> entries[|entries| - 1].0 == Some(d[|d'|].0) && !HasKey(d', d[|d'|].0)
    requires 0 <= a < b < |d|
    ensures FirstEntryIndex(entries, d[a].0) < FirstEntryIndex(entries, d[b].0)
  {
    var n := |entries| - 1;
    var prefix := entries[..n];
    var ka, kb := d[a].0, d[b].0;
    assert d'[a].0 == ka;
    assert HasKey(d', ka);
    assert FirstEntryIndex(prefix, ka) < n;
    FirstEntryIndexOfPrefix(entries, ka);
    FirstEntryIndexOfPrefix(entries, kb);
    if b < |d'| {
      assert d'[b].0 == kb;
      assert HasKey(d', kb);
      assert FirstEntryIndex(prefix, ka) < FirstEntryIndex(prefix, kb);
    } else {
      assert b == |d'| && |d| == |d'| + 1;
      assert entries[n].0 == Some(kb) && !HasKey(d', kb);
      assert FirstEntryIndex(prefix, kb) == n;
    }
  }

  /** The keys of the built dict are in the order in which they were first offered. */
  lemma {:induction false} BuildKeepsFirstOrder<K, V>(entries: seq<(Option<K>, V)>)
    ensures forall a, b :: 0 <= a < b < |Build(entries)| ==>
              FirstEntryIndex(entries, Build(entries)[a].0) < FirstEntryIndex(entries, Build(entries)[b].0)
  {
    if |entries| > 0 {
      var n := |entries| - 1;
      var d', d := Build(entries[..n]), Build(entries);
      BuildKeepsFirstOrder(entries[..n]);
      BuildHasKey(entries[..n]);
      BuildExtends(entries);
      forall a, b | 0 <= a < b < |d|
        ensures FirstEntryIndex(entries, d[a].0) < FirstEntryIndex(entries, d[b].0)
      {
        FirstOrderStep(entries, d', d, a, b);
      }
    }
  }
}

=== FILE: gather.dfy ===
/** Gathering several tutorials from one repository: the collection built
    from the manifest, the tips it contributes to a release, and the checks
    on the entries of a release tree. */
module Gather {
  import opened Results
  import opened GitObjects
  import opened CommitClassifier
  import opened History
  import Dicts

  /** One manifest row: the tutorial's name and its tip, already resolved to a
      commit id. */
  datatype ManifestRow = ManifestRow(name: string, tipCommit: Oid)

  /** The tutorials keyed by name, in the dict's insertion order. */
  datatype TutorialCollection = TutorialCollection(tutorials: Dicts.Dict<string, ProjectHistory>)

  /** The index of the first row called `name`, or `|rows|`. */
  function FirstRowNamed(rows: seq<ManifestRow>, name: string): (r: nat)
    ensures r <= |rows|
    ensures r < |rows| ==> rows[r].name == name
    ensures forall j :: 0 <= j < r ==> rows[j].name != name
  {
    if |rows| == 0 then 0
    else if rows[0].name == name then 0
    else 1 + FirstRowNamed(rows[1..], name)
  }

  /** Row `i` is called `name` and no later row is. */
  predicate LastRowNamed(rows: seq<ManifestRow>, i: int, name: string) {
    0 <= i < |rows| && rows[i].name == name
    && forall j :: i < j < |rows| ==> rows[j].name != name
  }

  /** The history of every row, in manifest order; the first row whose
      history cannot be built raises. */
  function RowHistories(repo: Repo, rows: seq<ManifestRow>): (r: Result<seq<ProjectHistory>, Error>)
    ensures r.Ok? <==> forall i :: 0 <= i < |rows| ==> FromTip(repo, rows[i].tipCommit).Ok?
    ensures r.Ok? ==> |r.value| == |rows|
    ensures r.Ok? ==> forall i :: 0 <= i < |rows| ==> r.value[i] == FromTip(repo, rows[i].tipCommit).value
    ensures r.Err? ==> exists i :: 0 <= i < |rows| && FromTip(repo, rows[i].tipCommit) == Err(r.error)
                          && forall j :: 0 <= j < i ==> FromTip(repo, rows[j].tipCommit).Ok?
  {
    if |rows| == 0 then Ok([])
    else
      var first :- FromTip(repo, rows[0].tipCommit);
      var rest :- RowHistories(repo, rows[1..]);
      assert forall i :: 1 <= i < |rows| ==> rows[i] == rows[1..][i - 1];
      Ok([first] + rest)
  }

  /** The entries of the collection's comprehension: each row's history under
      its name. */
  function NamedEntries(rows: seq<ManifestRow>, hs: seq<ProjectHistory>): (r: seq<(Option<string>, ProjectHistory)>)
    requires |hs| == |rows|
    ensures |r| == |rows|
    ensures forall i :: 0 <= i < |rows| ==> r[i] == (Some(rows[i].name), hs[i])
  {
    seq(|rows|, i requires 0 <= i < |rows| => (Some(rows[i].name), hs[i]))
  }

  /** The collection the manifest describes: one history per row, keyed by
      name. Every row's history is built, so any row can make it fail. */
  function FromManifest(repo: Repo, rows: seq<ManifestRow>): (r: Result<TutorialCollection, Error>)
    ensures r.Ok? <==> forall i :: 0 <= i < |rows| ==> FromTip(repo, rows[i].tipCommit).Ok?
    ensures r.Ok? ==> Dicts.DistinctKeys(r.value.tutorials)
    ensures r.Err? ==> exists i :: 0 <= i < |rows| && FromTip(repo, rows[i].tipCommit) == Err(r.error)
                          && forall j :: 0 <= j < i ==> FromTip(repo, rows[j].tipCommit).Ok?
  {
    var hs :- RowHistories(repo, rows);
    Ok(TutorialCollection(Dicts.Build(NamedEntries(rows, hs))))
  }

  /** The comprehension first offers a name at the name's first row. */
  lemma FirstOfferIsFirstRow(rows: seq<ManifestRow>, hs: seq<ProjectHistory>, name: string)
    requires |hs| == |rows|
    ensures Dicts.FirstEntryIndex(NamedEntries(rows, hs), name) == FirstRowNamed(rows, name)
  {
  }

  /** The collection holds exactly the manifest's names, each once. */
  lemma ManifestNames(repo: Repo, rows: seq<ManifestRow>, c: TutorialCollection)
    requires FromManifest(repo, rows) == Ok(c)
    ensures forall name :: Dicts.HasKey(c.tutorials, name) <==> exists i :: 0 <= i < |rows| && rows[i].name == name
  {
    var hs := RowHistories(repo, rows).value;
    var entries := NamedEntries(rows, hs);
    assert c.tutorials == Dicts.Build(entries);
    Dicts.BuildHasKey(entries);
    forall name
      ensures Dicts.HasKey(c.tutorials, name) <==> exists i :: 0 <= i < |rows| && rows[i].name == name
    {
      FirstOfferIsFirstRow(rows, hs, name);
      SomeRowNamed(rows, name);
    }
  }

  /** A first row with the name exists iff some row has the name. */
  lemma SomeRowNamed(rows: seq<ManifestRow>, name: string)
    ensures FirstRowNamed(rows, name) < |rows| <==> exists i :: 0 <= i < |rows| && rows[i].name == name
  {
    if exists i :: 0 <= i < |rows| && rows[i].name == name {
      var i :| 0 <= i < |rows| && rows[i].name == name;
      assert FirstRowNamed(rows, name) <= i;
    }
  }

  /** A name that several rows share holds the history of the last such row. */
  lemma ManifestLastRowWins(repo: Repo, rows: seq<ManifestRow>, c: TutorialCollection)
    requires FromManifest(repo, rows) == Ok(c)
    ensures forall i :: 0 <= i < |c.tutorials| ==>
              exists j :: LastRowNamed(rows, j, c.tutorials[i].0)
                          && Ok(c.tutorials[i].1) == FromTip(repo, rows[j].tipCommit)
  {
    var hs := RowHistories(repo, rows).value;
    var entries := NamedEntries(rows, hs);
    var t := c.tutorials;
    assert t == Dicts.Build(entries);
    Dicts.BuildLastWins(entries);
    forall i | 0 <= i < |t|
      ensures exists j :: LastRowNamed(rows, j, t[i].0) && Ok(t[i].1) == FromTip(repo, rows[j].tipCommit)
    {
      var j :| Dicts.LastEntryFor(entries, j, t[i].0) && t[i].1 == entries[j].1;
      assert LastRowNamed(rows, j, t[i].0);
      assert t[i].1 == hs[j];
    }
  }

  /** A shared name sits where its first row put it, so the names are in the
      order of their first rows. */
  lemma ManifestFirstRowOrder(repo: Repo, rows: seq<ManifestRow>, c: TutorialCollection)
    requires FromManifest(repo, rows) == Ok(c)
    ensures forall a, b :: 0 <= a < b < |c.tutorials| ==>
              FirstRowNamed(rows, c.tutorials[a].0) < FirstRowNamed(rows, c.tutorials[b].0)
  {
    var hs := RowHistories(repo, rows).value;
    var entries := NamedEntries(rows, hs);
    var t := c.tutorials;
    assert t == Dicts.Build(entries);
    Dicts.BuildKeepsFirstOrder(entries);
    forall a, b | 0 <= a < b < |t| ensures FirstRowNamed(rows, t[a].0) < FirstRowNamed(rows, t[b].0) {
      FirstOfferIsFirstRow(rows, hs, t[a].0);
      FirstOfferIsFirstRow(rows, hs, t[b].0);
    }
  }

  /** The tip commit ids of the tutorials, one per tutorial, in the
      collection's insertion order. */
  function GatheredTipOids(c: TutorialCollection): (r: seq<Oid>)
    requires forall i :: 0 <= i < |c.tutorials| ==> |c.tutorials[i].1.projectCommits| > 0
    ensures |r| == |c.tutorials|
  {
    seq(|c.tutorials|, i requires 0 <= i < |c.tutorials| => TipOid(c.tutorials[i].1))
  }

  /** Gathered from a manifest, the tips are one per distinct name, in order
      of the name's first row, each the tip commit of the last row with that
      name. */
  lemma GatheredTipsFollowManifest(repo: Repo, rows: seq<ManifestRow>, c: TutorialCollection)
    requires FromManifest(repo, rows) == Ok(c)
    ensures forall i :: 0 <= i < |c.tutorials| ==> |c.tutorials[i].1.projectCommits| > 0
    ensures forall i :: 0 <= i < |c.tutorials| ==>
              exists j :: LastRowNamed(rows, j, c.tutorials[i].0) && GatheredTipOids(c)[i] == rows[j].tipCommit
    ensures forall a, b :: 0 <= a < b < |c.tutorials| ==>
              FirstRowNamed(rows, c.tutorials[a].0) < FirstRowNamed(rows, c.tutorials[b].0)
  {
    ManifestLastRowWins(repo, rows, c);
    ManifestFirstRowOrder(repo, rows, c);
    forall i | 0 <= i < |c.tutorials|
      ensures |c.tutorials[i].1.projectCommits| > 0
    {
      var j :| LastRowNamed(rows, j, c.tutorials[i].0) && Ok(c.tutorials[i].1) == FromTip(repo, rows[j].tipCommit);
    }
    forall i | 0 <= i < |c.tutorials|
      ensures exists j :: LastRowNamed(rows, j, c.tutorials[i].0) && GatheredTipOids(c)[i] == rows[j].tipCommit
    {
      var j :| LastRowNamed(rows, j, c.tutorials[i].0) && Ok(c.tutorials[i].1) == FromTip(repo, rows[j].tipCommit);
      assert GatheredTipOids(c)[i] == TipOid(c.tutorials[i].1);
    }
  }

  // ---------------------------------------------------------------------------
  // Release tree checks

  /** The only entry of a commit's tree; a tree of any other size raises. */
  function SoleTreeEntry(pc: ProjectCommit): (r: Result<TreeEntry, Error>)
    ensures r.Ok? <==> |pc.commit.tree.entries| == 1
    ensures r.Ok? ==> r.value == pc.commit.tree.entries[0]
    ensures r.Err? ==> r.error == NotSoleTreeEntry(pc.oid)
  {
    var entries := pc.commit.tree.entries;
    if |entries| != 1 then Err(NotSoleTreeEntry(pc.oid)) else Ok(entries[0])
  }

  /** The tutorial's top-level directory is the sole entry of its tip's tree. */
  lemma SoleEntryIsTopLevelDirectory(h: ProjectHistory)
    requires |h.projectCommits| > 0
    ensures SoleTreeEntry(h.projectCommits[0]).Ok? <==> TopLevelDirectoryName(h).Ok?
    ensures SoleTreeEntry(h.projectCommits[0]).Ok? ==>
              SoleTreeEntry(h.projectCommits[0]).value.name == TopLevelDirectoryName(h).value
  {
  }

  /** Checks the mode of the entry at `idx` of a release tree: the recipe at
      index 0 must be a plain blob, every later entry a tree; any other index
      passes. Passing changes nothing. */
  function VerifyEntryType(idx: int, entry: TreeEntry): (r: Result<(), Error>)
    ensures r.Ok? <==> (idx == 0 ==> entry.filemode == ModeBlob) && (idx > 0 ==> entry.filemode == ModeTree)
    ensures idx == 0 && entry.filemode != ModeBlob ==> r == Err(ExpectedBlobEntry(entry.id))
    ensures idx > 0 && entry.filemode != ModeTree ==> r == Err(ExpectedTreeEntry(entry.id))
  {
    if idx == 0 && entry.filemode != ModeBlob then Err(ExpectedBlobEntry(entry.id))
    else if idx > 0 && entry.filemode != ModeTree then Err(ExpectedTreeEntry(entry.id))
    else Ok(())
  }

  /** A release tree passes the check at every index iff it is empty or it is
      a plain blob followed by trees only; an executable recipe, or a blob
      where a tutorial's tree belongs, is rejected. */
  lemma ReleaseTreeShape(entries: seq<TreeEntry>)
    ensures (forall i :: 0 <= i < |entries| ==> VerifyEntryType(i, entries[i]).Ok?) <==>
            (|entries| == 0
             || (entries[0].filemode == ModeBlob && forall i :: 1 <= i < |entries| ==> entries[i].filemode == ModeTree))
  {
    if |entries| > 0 && (forall i :: 0 <= i < |entries| ==> VerifyEntryType(i, entries[i]).Ok?) {
      assert VerifyEntryType(0, entries[0]).Ok?;
    }
  }
}

=== FILE: git_objects.dfy ===
/** The git object graph the tutorial history is read from: commits, trees,
    blobs and the per-file deltas of a commit's diff, plus the errors that
    reading it can raise. */
module GitObjects {
  import opened Results
  import Paths

  newtype Byte = x: int | 0 <= x < 256
  type Bytes = seq<Byte>

  /** A content-addressed object id (its hex form). */
  type Oid = string

  /** The status of one delta in a diff (pygit2's `GIT_DELTA_*`). */
  datatype DeltaStatus =
    | Unmodified | Added | Deleted | Modified | Renamed | Copied
    | Ignored | Untracked | Typechange | Unreadable | Conflicted

  /** One side of a delta: the file's path and blob id. */
  datatype DiffFile = DiffFile(path: string, id: Oid)

  datatype Delta = Delta(status: DeltaStatus, oldFile: DiffFile, newFile: DiffFile)

  /** The mode of a tree entry (pygit2's `GIT_FILEMODE_*`); an executable
      file is a different mode from a plain blob. */
  datatype FileMode = ModeBlob | ModeBlobExecutable | ModeTree | ModeLink | ModeCommit

  datatype TreeEntry = TreeEntry(name: string, id: Oid, filemode: FileMode)

  /** A tree lists its entries in order. */
  datatype Tree = Tree(entries: seq<TreeEntry>)

  /** A commit with its diff against its first parent's tree, or against the
      empty tree when it has no parent (the diff is supplied with the commit). */
  datatype Commit = Commit(parentIds: seq<Oid>, message: string, tree: Tree, diff: seq<Delta>)

  /** The object database: every object reachable by id. */
  datatype Repo = Repo(commits: map<Oid, Commit>, trees: map<Oid, Tree>, blobs: map<Oid, Bytes>)

  /** Every way reading a tutorial history can fail. */
  datatype Error =
    | MissingObject(id: Oid)             // `repo[oid]` has no such object
    | DeltaNotAdded                      // an asset built from a non-Added delta
    | NoIdentifierSlug(commit: Oid)
    | NotExactlyOneDelta(commit: Oid)
    | DeltaNotModified(commit: Oid)
    | PathTooShort(path: string)         // `parts[1]` of a one-component path
    | MixedAssetCommit(commit: Oid)      // adds assets but also has other deltas
    | NotPythonCodeChange(commit: Oid)
    | NoParent(commit: Oid)              // `parent_ids[0]` of a root commit
    | AncestryCycle(commit: Oid)         // the first-parent walk came back to a commit
    | TopLevelEntryCount(count: nat)
    | PathNotFound(path: string)
    | NotABlob(path: string)
    | UnknownSlug(slug: string)
    | NotSoleTreeEntry(commit: Oid)
    | ExpectedBlobEntry(id: Oid)
    | ExpectedTreeEntry(id: Oid)

  /** The first entry of `entries` called `name`, if any. */
  function FindEntry(entries: seq<TreeEntry>, name: string): (r: Option<TreeEntry>)
    ensures r.Some? <==> exists i :: 0 <= i < |entries| && entries[i].name == name
    ensures r.Some? ==> r.value.name == name && r.value in entries
  {
    if |entries| == 0 then None
    else if entries[0].name == name then Some(entries[0])
    else FindEntry(entries[1..], name)
  }

  /** Follows `parts` down from `tree` and returns the blob at the end;
      `path` is only carried for the error. */
  function LookupParts(repo: Repo, tree: Tree, parts: seq<string>, path: string): (r: Result<Bytes, Error>)
    requires |parts| > 0
    ensures r.Ok? ==> r.value in repo.blobs.Values
    ensures r.Err? ==> r.error == PathNotFound(path) || r.error == NotABlob(path)
    decreases |parts|
  {
    match FindEntry(tree.entries, parts[0])
    case None => Err(PathNotFound(path))
    case Some(e) =>
      if |parts| == 1 then
        if e.id in repo.blobs then Ok(repo.blobs[e.id]) else Err(NotABlob(path))
      else if e.id in repo.trees then LookupParts(repo, repo.trees[e.id], parts[1..], path)
      else Err(PathNotFound(path))
  }

  /** The content of the blob at `path` in `tree` (`(tree / path).data`). */
  function ReadBlob(repo: Repo, tree: Tree, path: string): (r: Result<Bytes, Error>)
    ensures r.Ok? ==> r.value in repo.blobs.Values
    ensures r.Err? ==> r.error == PathNotFound(path) || r.error == NotABlob(path)
  {
    var parts := Paths.Parts(path);
    if |parts| == 0 then Err(PathNotFound(path)) else LookupParts(repo, tree, parts, path)
  }

  /** `tree` lists an entry called `dir` that is a subtree the database holds. */
  predicate ListsSubtree(repo: Repo, tree: Tree, dir: string) {
    FindEntry(tree.entries, dir).Some? && FindEntry(tree.entries, dir).value.id in repo.trees
  }

  /** A file directly inside a top-level directory is found by its
      two-component path: it is not found when `tree` lists no subtree
      called `dir`; otherwise it reads the blob that subtree, `sub`, lists
      under `file`, and fails when there is no such entry or it is not a
      blob. */
  lemma ReadBlobInDirectory(repo: Repo, tree: Tree, dir: string, file: string, sub: Tree)
    requires Paths.IsComponent(dir) && Paths.IsComponent(file)
    requires ListsSubtree(repo, tree, dir) ==> sub == repo.trees[FindEntry(tree.entries, dir).value.id]
    ensures !ListsSubtree(repo, tree, dir) ==>
              ReadBlob(repo, tree, dir + "/" + file) == Err(PathNotFound(dir + "/" + file))
    ensures ListsSubtree(repo, tree, dir) && FindEntry(sub.entries, file).None? ==>
              ReadBlob(repo, tree, dir + "/" + file) == Err(PathNotFound(dir + "/" + file))
    ensures ListsSubtree(repo, tree, dir) && FindEntry(sub.entries, file).Some?
            && FindEntry(sub.entries, file).value.id in repo.blobs ==>
              ReadBlob(repo, tree, dir + "/" + file) == Ok(repo.blobs[FindEntry(sub.entries, file).value.id])
    ensures ListsSubtree(repo, tree, dir) && FindEntry(sub.entries, file).Some?
            && FindEntry(sub.entries, file).value.id !in repo.blobs ==>
              ReadBlob(repo, tree, dir + "/" + file) == Err(NotABlob(dir + "/" + file))
  {
    var path := dir + "/" + file;
    Paths.PartsOfChild(dir, file);
    assert ReadBlob(repo, tree, path) == LookupParts(repo, tree, [dir, file], path);
    if ListsSubtree(repo, tree, dir) {
      assert [dir, file][1..] == [file];
      assert LookupParts(repo, tree, [dir, file], path) == LookupParts(repo, sub, [file], path);
    }
  }
}

=== FILE: history.dfy ===
/** A tutorial's development history: the commits from a tip back along
    first parents to the base commit, and the views derived from them. */
module History {
  import opened Results
  import opened GitObjects
  import opened CommitClassifier
  import Paths
  import Dicts

  /** The commits of a history, tip first and base last, with the object
      database they were read from. */
  datatype ProjectHistory = ProjectHistory(repo: Repo, projectCommits: seq<ProjectCommit>)

  // ---------------------------------------------------------------------------
  // First-parent walk

  /** The commit is the one the database holds under its id. */
  predicate InRepo(repo: Repo, pc: ProjectCommit) {
    pc.oid in repo.commits && repo.commits[pc.oid] == pc.commit
  }

  /** `next` is the first parent of `pc`. */
  predicate FirstParentOf(pc: ProjectCommit, next: ProjectCommit) {
    |pc.commit.parentIds| > 0 && next.oid == pc.commit.parentIds[0]
  }

  /** `s` is the first-parent ancestry of `tip` down to the first base commit:
      the tip first, each later commit the first parent of the one before,
      the last one a base commit and no earlier one a base commit. */
  ghost predicate IsLinearAncestry(repo: Repo, tip: Oid, s: seq<ProjectCommit>) {
    && |s| > 0
    && s[0].oid == tip
    && (forall i :: 0 <= i < |s| ==> InRepo(repo, s[i]))
    && (forall i :: 0 <= i < |s| - 1 ==> FirstParentOf(s[i], s[i + 1]))
    && (forall i :: 0 <= i < |s| - 1 ==> !IsBase(s[i]))
    && IsBase(s[|s| - 1])
  }

  /** The commit the database holds under `oid` (`repo[oid]`). */
  function LoadCommit(repo: Repo, oid: Oid): (r: Result<ProjectCommit, Error>)
    ensures r.Ok? <==> oid in repo.commits
    ensures r.Ok? ==> r.value.oid == oid && InRepo(repo, r.value)
    ensures r.Err? ==> r.error == MissingObject(oid)
  {
    if oid in repo.commits then Ok(ProjectCommit(oid, repo.commits[oid])) else Err(MissingObject(oid))
  }

  /** Walks first parents from `oid` until a base commit, which is included.
      A commit without a parent before the base is an error; so is coming
      back to a commit in `visited`, where the walk would otherwise go round
      for ever. */
  function Ancestors(repo: Repo, oid: Oid, visited: set<Oid>): (r: Result<seq<ProjectCommit>, Error>)
    ensures oid !in repo.commits ==> r == Err(MissingObject(oid))
    ensures oid in repo.commits && oid in visited ==> r == Err(AncestryCycle(oid))
    ensures r.Ok? ==> |r.value| > 0 && r.value[0] == ProjectCommit(oid, repo.commits[oid])
    ensures r.Ok? ==> IsBase(r.value[|r.value| - 1])
    ensures r.Ok? ==> forall i :: 0 <= i < |r.value| ==> r.value[i].oid !in visited
    ensures (oid in repo.commits && oid !in visited && !IsBase(ProjectCommit(oid, repo.commits[oid]))
             && |repo.commits[oid].parentIds| == 0) ==> r == Err(NoParent(oid))
    ensures (oid in repo.commits && oid !in visited && !IsBase(ProjectCommit(oid, repo.commits[oid]))
             && |repo.commits[oid].parentIds| > 0 && repo.commits[oid].parentIds[0] !in repo.commits) ==>
              r == Err(MissingObject(repo.commits[oid].parentIds[0]))
    decreases repo.commits.Keys - visited
  {
    var pc :- LoadCommit(repo, oid);
    if oid in visited then Err(AncestryCycle(oid))
    else if IsBase(pc) then Ok([pc])
    else if |pc.commit.parentIds| == 0 then Err(NoParent(oid))
    else
      var rest :- Ancestors(repo, pc.commit.parentIds[0], visited + {oid});
      Ok([pc] + rest)
  }

  lemma {:induction false} AncestorsSound(repo: Repo, oid: Oid, visited: set<Oid>)
    requires Ancestors(repo, oid, visited).Ok?
    ensures IsLinearAncestry(repo, oid, Ancestors(repo, oid, visited).value)
    ensures forall i :: 0 <= i < |Ancestors(repo, oid, visited).value| ==>
              Ancestors(repo, oid, visited).value[i].oid !in visited
    decreases repo.commits.Keys - visited
  {
    var pc := LoadCommit(repo, oid).value;
    if !IsBase(pc) {
      assert oid !in visited && |pc.commit.parentIds| > 0;
      var next := pc.commit.parentIds[0];
      assert Ancestors(repo, next, visited + {oid}).Ok?;
      AncestorsSound(repo, next, visited + {oid});
      var rest := Ancestors(repo, next, visited + {oid}).value;
      assert Ancestors(repo, oid, visited).value == [pc] + rest;
      AncestryExtends(repo, pc, rest);
      assert forall i :: 1 <= i < |[pc] + rest| ==> ([pc] + rest)[i] == rest[i - 1];
    }
  }

  /** A non-base commit followed by its first parent's linear ancestry is a
      linear ancestry. */
  lemma AncestryExtends(repo: Repo, pc: ProjectCommit, rest: seq<ProjectCommit>)
    requires InRepo(repo, pc) && !IsBase(pc) && |pc.commit.parentIds| > 0
    requires IsLinearAncestry(repo, pc.commit.parentIds[0], rest)
    ensures IsLinearAncestry(repo, pc.oid, [pc] + rest)
  {
    var s := [pc] + rest;
    assert forall i :: 1 <= i < |s| ==> s[i] == rest[i - 1];
  }

  /** No commit appears twice in a linear ancestry: a repeat would make the
      sequence periodic, and the base commit at its end would then also
      appear earlier. */
  lemma {:induction false} AncestryHasNoRepeats(repo: Repo, tip: Oid, s: seq<ProjectCommit>)
    requires IsLinearAncestry(repo, tip, s)
    ensures forall i, j :: 0 <= i < j < |s| ==> s[i].oid != s[j].oid
  {
    forall i, j | 0 <= i < j < |s| ensures s[i].oid != s[j].oid {
      if s[i].oid == s[j].oid {
        var k := 0;
        while j + k < |s| - 1
          invariant 0 <= k && j + k < |s|
          invariant s[i + k] == s[j + k]
          decreases |s| - j - k
        {
          assert FirstParentOf(s[i + k], s[i + k + 1]);
          assert FirstParentOf(s[j + k], s[j + k + 1]);
          assert InRepo(repo, s[i + k + 1]) && InRepo(repo, s[j + k + 1]);
          k := k + 1;
        }
        assert false;
      }
    }
  }

  lemma {:induction false} AncestorsComplete(repo: Repo, s: seq<ProjectCommit>, visited: set<Oid>)
    requires |s| > 0 && IsLinearAncestry(repo, s[0].oid, s)
    requires forall i :: 0 <= i < |s| ==> s[i].oid !in visited
    ensures Ancestors(repo, s[0].oid, visited) == Ok(s)
    decreases |s|
  {
    var oid := s[0].oid;
    assert InRepo(repo, s[0]);
    assert LoadCommit(repo, oid) == Ok(s[0]);
    if |s| > 1 {
      assert !IsBase(s[0]) && FirstParentOf(s[0], s[1]);
      var rest := s[1..];
      AncestryHasNoRepeats(repo, oid, s);
      assert forall i :: 0 <= i < |rest| ==> rest[i] == s[i + 1];
      assert IsLinearAncestry(repo, rest[0].oid, rest);
      assert forall i :: 0 <= i < |rest| ==> rest[i].oid !in visited + {oid};
      AncestorsComplete(repo, rest, visited + {oid});
      assert rest[0].oid == s[0].commit.parentIds[0];
      assert Ancestors(repo, s[0].commit.parentIds[0], visited + {oid}) == Ok(rest);
      assert s == [s[0]] + rest;
    } else {
      assert IsBase(s[0]) && s == [s[0]];
    }
  }

  /** The commits from `tip` back along first parents to the base commit. */
  function CommitLinearAncestors(repo: Repo, tip: Oid): (r: Result<seq<ProjectCommit>, Error>)
    ensures r.Ok? ==> IsLinearAncestry(repo, tip, r.value)
    ensures tip !in repo.commits ==> r == Err(MissingObject(tip))
    ensures (tip in repo.commits && !IsBase(ProjectCommit(tip, repo.commits[tip]))
             && |repo.commits[tip].parentIds| == 0) ==> r == Err(NoParent(tip))
    ensures (tip in repo.commits && !IsBase(ProjectCommit(tip, repo.commits[tip]))
             && |repo.commits[tip].parentIds| > 0 && repo.commits[tip].parentIds[0] !in repo.commits) ==>
              r == Err(MissingObject(repo.commits[tip].parentIds[0]))
  {
    var r := Ancestors(repo, tip, {});
    if r.Ok? then AncestorsSound(repo, tip, {}); r else r
  }

  /** The walk finds exactly the linear ancestry: it succeeds with `s` iff `s`
      is the first-parent ancestry of `tip` down to a base commit, so it
      fails iff there is none. */
  lemma WalkIsExact(repo: Repo, tip: Oid, s: seq<ProjectCommit>)
    ensures CommitLinearAncestors(repo, tip) == Ok(s) <==> IsLinearAncestry(repo, tip, s)
  {
    if IsLinearAncestry(repo, tip, s) {
      AncestorsComplete(repo, s, {});
    }
  }

  /** `s` is a first-parent chain of commits the database holds, none of
      them a base commit: a walk that has not yet ended. */
  ghost predicate IsBaseFreeChain(repo: Repo, s: seq<ProjectCommit>) {
    && |s| > 0
    && (forall i :: 0 <= i < |s| ==> InRepo(repo, s[i]))
    && (forall i :: 0 <= i < |s| - 1 ==> FirstParentOf(s[i], s[i + 1]))
    && (forall i :: 0 <= i < |s| ==> !IsBase(s[i]))
  }

  /** No commit appears twice in `s`. */
  ghost predicate DistinctOids(s: seq<ProjectCommit>) {
    forall i, j :: 0 <= i < j < |s| ==> s[i].oid != s[j].oid
  }

  /** The walk cannot go on past the non-base commit `c`, and `e` says why:
      `c` has no parent (`parent_ids[0]` raises), or its first parent is not
      in the database (`repo[oid]` raises). */
  predicate DeadEnd(repo: Repo, c: ProjectCommit, e: Error) {
    || (|c.commit.parentIds| == 0 && e == NoParent(c.oid))
    || (|c.commit.parentIds| > 0 && c.commit.parentIds[0] !in repo.commits
        && e == MissingObject(c.commit.parentIds[0]))
  }

  /** The walk along `s`, having already visited `visited`, stops after the
      last commit of `s` with error `e`: a dead end, or a first parent it has
      already seen. */
  ghost predicate StopsWith(repo: Repo, s: seq<ProjectCommit>, visited: set<Oid>, e: Error)
    requires |s| > 0
  {
    var c := s[|s| - 1];
    || DeadEnd(repo, c, e)
    || (&& |c.commit.parentIds| > 0
        && c.commit.parentIds[0] in repo.commits
        && e == AncestryCycle(c.commit.parentIds[0])
        && (c.commit.parentIds[0] in visited || exists j :: 0 <= j < |s| && s[j].oid == c.commit.parentIds[0]))
  }

  /** `s` is the failed walk from `tip`: the commits it loads before it
      raises `e`. */
  ghost predicate IsFailedWalk(repo: Repo, tip: Oid, s: seq<ProjectCommit>, e: Error) {
    IsBaseFreeChain(repo, s) && s[0].oid == tip && DistinctOids(s) && StopsWith(repo, s, {}, e)
  }

  /** A chain that ends at a dead end has no repeats: a repeat would make the
      chain periodic, and its last commit would then also appear earlier,
      followed by its first parent. */
  lemma {:induction false} DeadEndChainHasNoRepeats(repo: Repo, s: seq<ProjectCommit>, e: Error)
    requires IsBaseFreeChain(repo, s) && DeadEnd(repo, s[|s| - 1], e)
    ensures DistinctOids(s)
  {
    forall i, j | 0 <= i < j < |s| ensures s[i].oid != s[j].oid {
      if s[i].oid == s[j].oid {
        var k := 0;
        while j + k < |s| - 1
          invariant 0 <= k && j + k < |s|
          invariant s[i + k] == s[j + k]
          decreases |s| - j - k
        {
          assert FirstParentOf(s[i + k], s[i + k + 1]);
          assert FirstParentOf(s[j + k], s[j + k + 1]);
          assert InRepo(repo, s[i + k + 1]) && InRepo(repo, s[j + k + 1]);
          k := k + 1;
        }
        assert false;
      }
    }
  }

  /** A walk along a base-free chain of distinct, unvisited commits raises
      exactly the error at which the chain stops. */
  lemma {:induction false} AncestorsStop(repo: Repo, s: seq<ProjectCommit>, visited: set<Oid>, e: Error)
    requires IsBaseFreeChain(repo, s) && DistinctOids(s)
    requires forall i :: 0 <= i < |s| ==> s[i].oid !in visited
    requires StopsWith(repo, s, visited, e)
    ensures Ancestors(repo, s[0].oid, visited) == Err(e)
    decreases |s|
  {
    var oid := s[0].oid;
    var c := s[|s| - 1];
    assert InRepo(repo, s[0]) && !IsBase(s[0]);
    if |s| > 1 {
      assert FirstParentOf(s[0], s[1]);
      var rest := s[1..];
      assert forall i :: 0 <= i < |rest| ==> rest[i] == s[i + 1];
      assert IsBaseFreeChain(repo, rest);
      assert forall i :: 0 <= i < |rest| ==> rest[i].oid !in visited + {oid};
      assert rest[|rest| - 1] == c;
      if !DeadEnd(repo, c, e) {
        var p := c.commit.parentIds[0];
        if p !in visited {
          var j :| 0 <= j < |s| && s[j].oid == p;
          if j > 0 {
            assert rest[j - 1].oid == p;
          }
        }
      }
      assert StopsWith(repo, rest, visited + {oid}, e);
      AncestorsStop(repo, rest, visited + {oid}, e);
    } else if !DeadEnd(repo, c, e) {
      var p := c.commit.parentIds[0];
      assert p in visited + {oid};
      assert Ancestors(repo, p, visited + {oid}) == Err(AncestryCycle(p));
    }
  }

  /** A failed walk leaves behind the chain it loaded: a base-free chain of
      distinct, unvisited commits at whose end it stops with its error. */
  lemma {:induction false} AncestorsFailureChain(repo: Repo, oid: Oid, visited: set<Oid>) returns (s: seq<ProjectCommit>)
    requires oid in repo.commits && oid !in visited && Ancestors(repo, oid, visited).Err?
    ensures IsBaseFreeChain(repo, s) && s[0].oid == oid && DistinctOids(s)
    ensures forall i :: 0 <= i < |s| ==> s[i].oid !in visited
    ensures StopsWith(repo, s, visited, Ancestors(repo, oid, visited).error)
    decreases repo.commits.Keys - visited
  {
    var pc := ProjectCommit(oid, repo.commits[oid]);
    var e := Ancestors(repo, oid, visited).error;
    assert !IsBase(pc);
    if |pc.commit.parentIds| == 0 || pc.commit.parentIds[0] !in repo.commits {
      s := [pc];
    } else {
      var p := pc.commit.parentIds[0];
      if p in visited + {oid} {
        s := [pc];
        assert e == AncestryCycle(p);
      } else {
        var rest := AncestorsFailureChain(repo, p, visited + {oid});
        assert Ancestors(repo, p, visited + {oid}).error == e;
        s := [pc] + rest;
        assert forall i :: 1 <= i < |s| ==> s[i] == rest[i - 1];
        assert s[|s| - 1] == rest[|rest| - 1];
        var c := rest[|rest| - 1];
        if !DeadEnd(repo, c, e) {
          var q := c.commit.parentIds[0];
          if q !in visited && q != oid {
            var j :| 0 <= j < |rest| && rest[j].oid == q;
            assert s[j + 1].oid == q;
          }
        }
      }
    }
  }

  /** The walk fails with `e` exactly when the tip is missing and `e` says so,
      or when there is a failed walk from the tip that stops with `e`. */
  lemma WalkFailureIsExact(repo: Repo, tip: Oid, e: Error)
    ensures CommitLinearAncestors(repo, tip) == Err(e) <==>
              (tip !in repo.commits && e == MissingObject(tip)) || exists s :: IsFailedWalk(repo, tip, s, e)
  {
    if tip in repo.commits {
      if CommitLinearAncestors(repo, tip) == Err(e) {
        var s := AncestorsFailureChain(repo, tip, {});
        assert IsFailedWalk(repo, tip, s, e);
      }
      if exists s :: IsFailedWalk(repo, tip, s, e) {
        var s :| IsFailedWalk(repo, tip, s, e);
        AncestorsStop(repo, s, {}, e);
      }
    } else {
      forall s | IsFailedWalk(repo, tip, s, e) ensures false {
        assert false;
      }
    }
  }

  /** A first-parent chain from `tip` with no base commit, ending at a commit
      without a parent or whose first parent is missing, makes the walk raise
      for that last commit. */
  lemma WalkStopsAtDeadEnd(repo: Repo, s: seq<ProjectCommit>, e: Error)
    requires IsBaseFreeChain(repo, s) && DeadEnd(repo, s[|s| - 1], e)
    ensures CommitLinearAncestors(repo, s[0].oid) == Err(e)
  {
    DeadEndChainHasNoRepeats(repo, s, e);
    AncestorsStop(repo, s, {}, e);
  }

  /** The walk stops at a base commit: a base tip is a history of one commit. */
  lemma BaseTipIsWholeHistory(repo: Repo, tip: Oid)
    requires tip in repo.commits && IsBase(ProjectCommit(tip, repo.commits[tip]))
    ensures CommitLinearAncestors(repo, tip) == Ok([ProjectCommit(tip, repo.commits[tip])])
  {
  }

  /** The history of the commit `tip` (the revision is already resolved). */
  function FromTip(repo: Repo, tip: Oid): (r: Result<ProjectHistory, Error>)
    ensures r.Ok? ==> r.value.repo == repo && |r.value.projectCommits| > 0 && TipOid(r.value) == tip
  {
    var commits :- CommitLinearAncestors(repo, tip);
    Ok(ProjectHistory(repo, commits))
  }

  /** A history built from a tip holds exactly the tip's linear ancestry. */
  lemma FromTipIsLinearAncestry(repo: Repo, tip: Oid)
    ensures FromTip(repo, tip).Ok? <==> CommitLinearAncestors(repo, tip).Ok?
    ensures FromTip(repo, tip).Ok? ==> IsLinearAncestry(repo, tip, FromTip(repo, tip).value.projectCommits)
  {
  }

  /** The id of the tip commit. */
  function TipOid(h: ProjectHistory): Oid
    requires |h.projectCommits| > 0
  {
    h.projectCommits[0].oid
  }

  // ---------------------------------------------------------------------------
  // Assets

  /** The assets each commit adds, in tip-to-base order. */
  function AssetsPerCommit(repo: Repo, cs: seq<ProjectCommit>): (r: seq<Result<seq<ProjectAsset>, Error>>)
    ensures |r| == |cs|
  {
    seq(|cs|, i requires 0 <= i < |cs| => AddedAssets(repo, cs[i]))
  }

  /** The assets each commit adds, concatenated in tip-to-base order; the
      first commit whose assets cannot be read raises. */
  function ConcatAssets(repo: Repo, cs: seq<ProjectCommit>): (r: Result<seq<ProjectAsset>, Error>)
    ensures r.Ok? <==> forall i :: 0 <= i < |cs| ==> AddedAssets(repo, cs[i]).Ok?
    ensures r.Err? ==> exists i :: 0 <= i < |cs| && AddedAssets(repo, cs[i]) == Err(r.error)
                          && forall j :: 0 <= j < i ==> AddedAssets(repo, cs[j]).Ok?
  {
    var per := AssetsPerCommit(repo, cs);
    assert forall i :: 0 <= i < |cs| ==> per[i] == AddedAssets(repo, cs[i]);
    Flatten(per)
  }

  /** The assets of one commit are that commit's added assets, and the assets
      of consecutive runs of commits are concatenated in order. */
  lemma ConcatAssetsIsConcatenation(repo: Repo, xs: seq<ProjectCommit>, ys: seq<ProjectCommit>)
    ensures forall c :: ConcatAssets(repo, [c]) == AddedAssets(repo, c)
    ensures ConcatAssets(repo, xs).Ok? && ConcatAssets(repo, ys).Ok? ==>
              ConcatAssets(repo, xs + ys) == Ok(ConcatAssets(repo, xs).value + ConcatAssets(repo, ys).value)
  {
    forall c ensures ConcatAssets(repo, [c]) == AddedAssets(repo, c) {
      assert AssetsPerCommit(repo, [c]) == [AddedAssets(repo, c)];
      FlattenSingle(AddedAssets(repo, c));
    }
    if ConcatAssets(repo, xs).Ok? && ConcatAssets(repo, ys).Ok? {
      var all, left, right := AssetsPerCommit(repo, xs + ys), AssetsPerCommit(repo, xs), AssetsPerCommit(repo, ys);
      forall i | 0 <= i < |all| ensures all[i] == (left + right)[i] {
        if i < |xs| {
          assert (xs + ys)[i] == xs[i];
        } else {
          assert (xs + ys)[i] == ys[i - |xs|];
        }
      }
      assert all == left + right;
      FlattenAppend(AssetsPerCommit(repo, xs), AssetsPerCommit(repo, ys));
    }
  }

  /** Every asset in the concatenation lies in the asset directory. */
  lemma {:induction false} ConcatAssetsAreAssetPaths(repo: Repo, cs: seq<ProjectCommit>)
    requires ConcatAssets(repo, cs).Ok?
    ensures forall a :: a in ConcatAssets(repo, cs).value ==> IsAssetPath(a.path)
    decreases |cs|
  {
    if |cs| > 0 {
      assert cs == [cs[0]] + cs[1..];
      assert ConcatAssets(repo, cs[1..]).Ok? by {
        assert forall i :: 0 <= i < |cs| - 1 ==> cs[1..][i] == cs[i + 1];
      }
      ConcatAssetsIsConcatenation(repo, [cs[0]], cs[1..]);
      ConcatAssetsAreAssetPaths(repo, cs[1..]);
    }
  }

  /** Every asset added during the history, tip-to-base. */
  function AllProjectAssets(h: ProjectHistory): (r: Result<seq<ProjectAsset>, Error>)
    ensures r.Ok? <==> forall i :: 0 <= i < |h.projectCommits| ==> AddedAssets(h.repo, h.projectCommits[i]).Ok?
    ensures r.Err? ==> exists i :: 0 <= i < |h.projectCommits| && AddedAssets(h.repo, h.projectCommits[i]) == Err(r.error)
                          && forall j :: 0 <= j < i ==> AddedAssets(h.repo, h.projectCommits[j]).Ok?
    ensures r == ConcatAssets(h.repo, h.projectCommits)
    ensures r.Ok? && |h.projectCommits| > 0 ==>
              r.value == AddedAssets(h.repo, h.projectCommits[0]).value + ConcatAssets(h.repo, h.projectCommits[1..]).value
    ensures r.Ok? ==> forall a :: a in r.value ==> IsAssetPath(a.path)
  {
    var cs := h.projectCommits;
    var all := ConcatAssets(h.repo, cs);
    if all.Ok? then
      ConcatAssetsAreAssetPaths(h.repo, cs);
      if |cs| > 0 then
        ConcatAssetsIsConcatenation(h.repo, [cs[0]], cs[1..]);
        assert [cs[0]] + cs[1..] == cs;
        all
      else all
    else all
  }

  /** A history whose every commit adds no assets has none in all. */
  lemma {:induction false} NoAssetCommitsNoAssets(repo: Repo, cs: seq<ProjectCommit>)
    requires forall i :: 0 <= i < |cs| ==> AddsProjectAssets(cs[i]) == Ok(false)
    ensures ConcatAssets(repo, cs) == Ok([])
    decreases |cs|
  {
    if |cs| > 0 {
      assert cs == [cs[0]] + cs[1..];
      assert forall i :: 1 <= i < |cs| ==> cs[i] == cs[1..][i - 1];
      NoAssetCommitsNoAssets(repo, cs[1..]);
      ConcatAssetsIsConcatenation(repo, [cs[0]], cs[1..]);
      var none: seq<ProjectAsset> := [];
      assert none + none == none;
    }
  }

  // ---------------------------------------------------------------------------
  // Directory and file paths, snapshots

  /** The name of the sole entry at the top of the tip's tree; a tip tree of
      any other size raises. */
  function TopLevelDirectoryName(h: ProjectHistory): (r: Result<string, Error>)
    requires |h.projectCommits| > 0
    ensures r.Ok? <==> |h.projectCommits[0].commit.tree.entries| == 1
    ensures r.Ok? ==> r.value == h.projectCommits[0].commit.tree.entries[0].name
    ensures r.Err? ==> r.error == TopLevelEntryCount(|h.projectCommits[0].commit.tree.entries|)
  {
    var entries := h.projectCommits[0].commit.tree.entries;
    if |entries| != 1 then Err(TopLevelEntryCount(|entries|)) else Ok(entries[0].name)
  }

  /** The path of the code file: `code.py` in the top-level directory. */
  function PythonCodePath(h: ProjectHistory): (r: Result<string, Error>)
    requires |h.projectCommits| > 0
    ensures r.Ok? <==> TopLevelDirectoryName(h).Ok?
    ensures r.Err? ==> r.error == TopLevelDirectoryName(h).error
    ensures r.Ok? ==> r.value == TopLevelDirectoryName(h).value + "/" + CodeFileBasename
  {
    var dirname :- TopLevelDirectoryName(h);
    Ok(dirname + "/" + CodeFileBasename)
  }

  /** The path of the tutorial text: `tutorial.md` in the top-level directory. */
  function TutorialTextPath(h: ProjectHistory): (r: Result<string, Error>)
    requires |h.projectCommits| > 0
    ensures r.Ok? <==> TopLevelDirectoryName(h).Ok?
    ensures r.Err? ==> r.error == TopLevelDirectoryName(h).error
    ensures r.Ok? ==> r.value == TopLevelDirectoryName(h).value + "/" + TutorialTextFileBasename
  {
    var dirname :- TopLevelDirectoryName(h);
    Ok(dirname + "/" + TutorialTextFileBasename)
  }

  /** The derived paths lie directly in the top-level directory and end in the
      file names the single-file checks look for, so a delta at one of them
      counts as modifying that file. */
  lemma DerivedPathsNameTheTutorialFiles(h: ProjectHistory)
    requires |h.projectCommits| > 0
    requires TopLevelDirectoryName(h).Ok? && Paths.IsComponent(TopLevelDirectoryName(h).value)
    ensures PythonCodePath(h).Ok? && TutorialTextPath(h).Ok?
    ensures Paths.Parts(PythonCodePath(h).value) == [TopLevelDirectoryName(h).value, CodeFileBasename]
    ensures Paths.BaseName(PythonCodePath(h).value) == CodeFileBasename
    ensures Paths.Parts(TutorialTextPath(h).value) == [TopLevelDirectoryName(h).value, TutorialTextFileBasename]
    ensures Paths.BaseName(TutorialTextPath(h).value) == TutorialTextFileBasename
    ensures PythonCodePath(h).value != TutorialTextPath(h).value
  {
    var d := TopLevelDirectoryName(h).value;
    Paths.PartsOfChild(d, CodeFileBasename);
    Paths.PartsOfChild(d, TutorialTextFileBasename);
  }

  /** The tutorial text as of the tip. */
  function TutorialTextAtTip(h: ProjectHistory): (r: Result<Bytes, Error>)
    requires |h.projectCommits| > 0
    ensures TopLevelDirectoryName(h).Err? ==> r == Err(TopLevelDirectoryName(h).error)
    ensures TopLevelDirectoryName(h).Ok? && r.Err? ==>
              r.error == PathNotFound(TutorialTextPath(h).value) || r.error == NotABlob(TutorialTextPath(h).value)
    ensures TopLevelDirectoryName(h).Ok? ==>
              r == ReadBlob(h.repo, h.projectCommits[0].commit.tree, TutorialTextPath(h).value)
    ensures r.Ok? ==> r.value in h.repo.blobs.Values
  {
    var path :- TutorialTextPath(h);
    ReadBlob(h.repo, h.projectCommits[0].commit.tree, path)
  }

  /** The code as of the base commit. */
  function InitialCodeText(h: ProjectHistory): (r: Result<Bytes, Error>)
    requires |h.projectCommits| > 0
    ensures TopLevelDirectoryName(h).Err? ==> r == Err(TopLevelDirectoryName(h).error)
    ensures TopLevelDirectoryName(h).Ok? && r.Err? ==>
              r.error == PathNotFound(PythonCodePath(h).value) || r.error == NotABlob(PythonCodePath(h).value)
    ensures TopLevelDirectoryName(h).Ok? ==>
              r == ReadBlob(h.repo, h.projectCommits[|h.projectCommits| - 1].commit.tree, PythonCodePath(h).value)
    ensures r.Ok? ==> r.value in h.repo.blobs.Values
  {
    var path :- PythonCodePath(h);
    ReadBlob(h.repo, h.projectCommits[|h.projectCommits| - 1].commit.tree, path)
  }

  /** The code as of the tip. */
  function FinalCodeText(h: ProjectHistory): (r: Result<Bytes, Error>)
    requires |h.projectCommits| > 0
    ensures TopLevelDirectoryName(h).Err? ==> r == Err(TopLevelDirectoryName(h).error)
    ensures TopLevelDirectoryName(h).Ok? && r.Err? ==>
              r.error == PathNotFound(PythonCodePath(h).value) || r.error == NotABlob(PythonCodePath(h).value)
    ensures TopLevelDirectoryName(h).Ok? ==>
              r == ReadBlob(h.repo, h.projectCommits[0].commit.tree, PythonCodePath(h).value)
    ensures r.Ok? ==> r.value in h.repo.blobs.Values
  {
    var path :- PythonCodePath(h);
    ReadBlob(h.repo, h.projectCommits[0].commit.tree, path)
  }

  /** The final code is read through the tip's sole entry: it is not found
      when that entry is not a subtree; otherwise it is the `code.py` blob
      the directory lists, not found when it lists no such file and not a
      blob when the entry is not one. */
  lemma FinalCodeFromTopLevelDirectory(h: ProjectHistory, dirTree: Tree)
    requires |h.projectCommits| > 0
    requires |h.projectCommits[0].commit.tree.entries| == 1
    requires Paths.IsComponent(h.projectCommits[0].commit.tree.entries[0].name)
    requires h.projectCommits[0].commit.tree.entries[0].id in h.repo.trees ==>
               dirTree == h.repo.trees[h.projectCommits[0].commit.tree.entries[0].id]
    ensures h.projectCommits[0].commit.tree.entries[0].id !in h.repo.trees ==>
              FinalCodeText(h) == Err(PathNotFound(h.projectCommits[0].commit.tree.entries[0].name + "/" + CodeFileBasename))
    ensures h.projectCommits[0].commit.tree.entries[0].id in h.repo.trees
            && FindEntry(dirTree.entries, CodeFileBasename).Some?
            && FindEntry(dirTree.entries, CodeFileBasename).value.id in h.repo.blobs ==>
              FinalCodeText(h) == Ok(h.repo.blobs[FindEntry(dirTree.entries, CodeFileBasename).value.id])
    ensures h.projectCommits[0].commit.tree.entries[0].id in h.repo.trees
            && FindEntry(dirTree.entries, CodeFileBasename).Some?
            && FindEntry(dirTree.entries, CodeFileBasename).value.id !in h.repo.blobs ==>
              FinalCodeText(h) == Err(NotABlob(h.projectCommits[0].commit.tree.entries[0].name + "/" + CodeFileBasename))
    ensures h.projectCommits[0].commit.tree.entries[0].id in h.repo.trees
            && FindEntry(dirTree.entries, CodeFileBasename).None? ==>
              FinalCodeText(h) == Err(PathNotFound(h.projectCommits[0].commit.tree.entries[0].name + "/" + CodeFileBasename))
  {
    var tree := h.projectCommits[0].commit.tree;
    var d := tree.entries[0].name;
    assert FindEntry(tree.entries, d) == Some(tree.entries[0]);
    ReadBlobInDirectory(h.repo, tree, d, CodeFileBasename, dirTree);
  }

  /** The tutorial text is read through the tip's sole entry: it is not
      found when that entry is not a subtree; otherwise it is the
      `tutorial.md` blob the directory lists, not found when it lists no
      such file and not a blob when the entry is not one. */
  lemma TutorialTextFromTopLevelDirectory(h: ProjectHistory, dirTree: Tree)
    requires |h.projectCommits| > 0
    requires |h.projectCommits[0].commit.tree.entries| == 1
    requires Paths.IsComponent(h.projectCommits[0].commit.tree.entries[0].name)
    requires h.projectCommits[0].commit.tree.entries[0].id in h.repo.trees ==>
               dirTree == h.repo.trees[h.projectCommits[0].commit.tree.entries[0].id]
    ensures h.projectCommits[0].commit.tree.entries[0].id !in h.repo.trees ==>
              TutorialTextAtTip(h) == Err(PathNotFound(h.projectCommits[0].commit.tree.entries[0].name + "/" + TutorialTextFileBasename))
    ensures h.projectCommits[0].commit.tree.entries[0].id in h.repo.trees
            && FindEntry(dirTree.entries, TutorialTextFileBasename).Some?
            && FindEntry(dirTree.entries, TutorialTextFileBasename).value.id in h.repo.blobs ==>
              TutorialTextAtTip(h) == Ok(h.repo.blobs[FindEntry(dirTree.entries, TutorialTextFileBasename).value.id])
    ensures h.projectCommits[0].commit.tree.entries[0].id in h.repo.trees
            && FindEntry(dirTree.entries, TutorialTextFileBasename).Some?
            && FindEntry(dirTree.entries, TutorialTextFileBasename).value.id !in h.repo.blobs ==>
              TutorialTextAtTip(h) == Err(NotABlob(h.projectCommits[0].commit.tree.entries[0].name + "/" + TutorialTextFileBasename))
    ensures h.projectCommits[0].commit.tree.entries[0].id in h.repo.trees
            && FindEntry(dirTree.entries, TutorialTextFileBasename).None? ==>
              TutorialTextAtTip(h) == Err(PathNotFound(h.projectCommits[0].commit.tree.entries[0].name + "/" + TutorialTextFileBasename))
  {
    var tree := h.projectCommits[0].commit.tree;
    var d := tree.entries[0].name;
    assert FindEntry(tree.entries, d) == Some(tree.entries[0]);
    ReadBlobInDirectory(h.repo, tree, d, TutorialTextFileBasename, dirTree);
  }

  /** The initial code is read from the base commit's tree, in the directory
      named after the tip's sole entry: it is not found when the base tree
      lists no subtree of that name (the directory was renamed, say);
      otherwise it is the `code.py` blob the base's directory of that name
      lists, not found or not a blob as that directory has it. */
  lemma InitialCodeFromBaseDirectory(h: ProjectHistory, dirTree: Tree)
    requires |h.projectCommits| > 0
    requires |h.projectCommits[0].commit.tree.entries| == 1
    requires Paths.IsComponent(h.projectCommits[0].commit.tree.entries[0].name)
    requires ListsSubtree(h.repo, h.projectCommits[|h.projectCommits| - 1].commit.tree,
                          h.projectCommits[0].commit.tree.entries[0].name) ==>
               dirTree == h.repo.trees[FindEntry(h.projectCommits[|h.projectCommits| - 1].commit.tree.entries,
                                                 h.projectCommits[0].commit.tree.entries[0].name).value.id]
    ensures !ListsSubtree(h.repo, h.projectCommits[|h.projectCommits| - 1].commit.tree,
                          h.projectCommits[0].commit.tree.entries[0].name) ==>
              InitialCodeText(h) == Err(PathNotFound(h.projectCommits[0].commit.tree.entries[0].name + "/" + CodeFileBasename))
    ensures ListsSubtree(h.repo, h.projectCommits[|h.projectCommits| - 1].commit.tree,
                         h.projectCommits[0].commit.tree.entries[0].name)
            && FindEntry(dirTree.entries, CodeFileBasename).Some?
            && FindEntry(dirTree.entries, CodeFileBasename).value.id in h.repo.blobs ==>
              InitialCodeText(h) == Ok(h.repo.blobs[FindEntry(dirTree.entries, CodeFileBasename).value.id])
    ensures ListsSubtree(h.repo, h.projectCommits[|h.projectCommits| - 1].commit.tree,
                         h.projectCommits[0].commit.tree.entries[0].name)
            && FindEntry(dirTree.entries, CodeFileBasename).Some?
            && FindEntry(dirTree.entries, CodeFileBasename).value.id !in h.repo.blobs ==>
              InitialCodeText(h) == Err(NotABlob(h.projectCommits[0].commit.tree.entries[0].name + "/" + CodeFileBasename))
    ensures ListsSubtree(h.repo, h.projectCommits[|h.projectCommits| - 1].commit.tree,
                         h.projectCommits[0].commit.tree.entries[0].name)
            && FindEntry(dirTree.entries, CodeFileBasename).None? ==>
              InitialCodeText(h) == Err(PathNotFound(h.projectCommits[0].commit.tree.entries[0].name + "/" + CodeFileBasename))
  {
    var base := h.projectCommits[|h.projectCommits| - 1].commit.tree;
    var d := h.projectCommits[0].commit.tree.entries[0].name;
    ReadBlobInDirectory(h.repo, base, d, CodeFileBasename, dirTree);
  }

  // ---------------------------------------------------------------------------
  // Slugs

  /** Commit `cs[i]` carries `slug` and no later commit does. */
  predicate LastWithSlug(cs: seq<ProjectCommit>, i: int, slug: string) {
    0 <= i < |cs| && Slug(cs[i]) == Some(slug)
    && forall j :: i < j < |cs| ==> Slug(cs[j]) != Some(slug)
  }

  /** The entries of the slug table's comprehension: each commit under its
      slug, untagged commits filtered out. */
  function SlugEntries(cs: seq<ProjectCommit>): (r: seq<(Option<string>, ProjectCommit)>)
    ensures |r| == |cs|
  {
    seq(|cs|, i requires 0 <= i < |cs| => (Slug(cs[i]), cs[i]))
  }

  /** The table from slug to commit, filled in tip-to-base order. */
  function CommitFromSlug(h: ProjectHistory): (r: Dicts.Dict<string, ProjectCommit>)
    ensures Dicts.DistinctKeys(r)
    ensures forall slug :: Dicts.HasKey(r, slug) <==>
              exists i :: 0 <= i < |h.projectCommits| && Slug(h.projectCommits[i]) == Some(slug)
    ensures forall k :: 0 <= k < |r| ==> exists i :: LastWithSlug(h.projectCommits, i, r[k].0) && r[k].1 == h.projectCommits[i]
  {
    SlugTableKeys(h.projectCommits);
    SlugTableValues(h.projectCommits);
    Dicts.Build(SlugEntries(h.projectCommits))
  }

  /** The slug table has a key iff some commit carries it. */
  lemma SlugTableKeys(cs: seq<ProjectCommit>)
    ensures forall slug :: Dicts.HasKey(Dicts.Build(SlugEntries(cs)), slug) <==>
              exists i :: 0 <= i < |cs| && Slug(cs[i]) == Some(slug)
  {
    var entries := SlugEntries(cs);
    Dicts.BuildHasKey(entries);
    forall slug ensures Dicts.HasKey(Dicts.Build(entries), slug) <==> exists i :: 0 <= i < |cs| && Slug(cs[i]) == Some(slug) {
      if exists i :: 0 <= i < |cs| && Slug(cs[i]) == Some(slug) {
        var i :| 0 <= i < |cs| && Slug(cs[i]) == Some(slug);
        assert entries[i].0 == Some(slug);
      }
    }
  }

  /** Each slug in the table holds the last commit carrying it. */
  lemma SlugTableValues(cs: seq<ProjectCommit>)
    ensures forall k :: 0 <= k < |Dicts.Build(SlugEntries(cs))| ==>
              exists i :: LastWithSlug(cs, i, Dicts.Build(SlugEntries(cs))[k].0) && Dicts.Build(SlugEntries(cs))[k].1 == cs[i]
  {
    var entries := SlugEntries(cs);
    var table := Dicts.Build(entries);
    Dicts.BuildLastWins(entries);
    forall k | 0 <= k < |table| ensures exists i :: LastWithSlug(cs, i, table[k].0) && table[k].1 == cs[i] {
      var j :| Dicts.LastEntryFor(entries, j, table[k].0) && table[k].1 == entries[j].1;
      assert forall m :: j < m < |cs| ==> entries[m].0 == Slug(cs[m]);
      assert LastWithSlug(cs, j, table[k].0);
    }
  }

  /** The commit a slug names; an unknown slug raises. When several commits
      share the slug, the one nearest the base wins. */
  function CommitForSlug(h: ProjectHistory, slug: string): (r: Result<ProjectCommit, Error>)
    ensures r.Err? <==> forall i :: 0 <= i < |h.projectCommits| ==> Slug(h.projectCommits[i]) != Some(slug)
    ensures r.Err? ==> r.error == UnknownSlug(slug)
    ensures r.Ok? ==> exists i :: LastWithSlug(h.projectCommits, i, slug) && r.value == h.projectCommits[i]
  {
    var cs := h.projectCommits;
    var entries := SlugEntries(cs);
    var table := Dicts.Build(entries);
    Dicts.BuildHasKey(entries);
    Dicts.BuildLastWins(entries);
    assert forall i :: 0 <= i < |cs| ==> entries[i].0 == Slug(cs[i]) && entries[i].1 == cs[i];
    match Dicts.Get(table, slug)
    case None =>
      assert Dicts.FirstEntryIndex(entries, slug) == |entries|;
      Err(UnknownSlug(slug))
    case Some(pc) =>
      var k :| 0 <= k < |table| && table[k] == (slug, pc);
      var j :| Dicts.LastEntryFor(entries, j, slug) && pc == entries[j].1;
      assert LastWithSlug(cs, j, slug);
      Ok(pc)
  }

  /** Each commit's slug resolves to a commit carrying that slug, and to that
      very commit when no commit nearer the base shares it. */
  lemma SlugResolvesToTaggedCommit(h: ProjectHistory, i: int)
    requires 0 <= i < |h.projectCommits| && HasIdentifierSlug(h.projectCommits[i])
    ensures CommitForSlug(h, Slug(h.projectCommits[i]).value).Ok?
    ensures Slug(CommitForSlug(h, Slug(h.projectCommits[i]).value).value) == Slug(h.projectCommits[i])
    ensures (forall j :: i < j < |h.projectCommits| ==> Slug(h.projectCommits[j]) != Slug(h.projectCommits[i]))
            ==> CommitForSlug(h, Slug(h.projectCommits[i]).value) == Ok(h.projectCommits[i])
  {
    var slug := Slug(h.projectCommits[i]).value;
    var r := CommitForSlug(h, slug);
    var k :| LastWithSlug(h.projectCommits, k, slug) && r.value == h.projectCommits[k];
    if forall j :: i < j < |h.projectCommits| ==> Slug(h.projectCommits[j]) != Slug(h.projectCommits[i]) {
      if k != i {
        assert false;
      }
    }
  }

  /** The code as of the commit a slug names. */
  function CodeTextFromSlug(h: ProjectHistory, slug: string): (r: Result<Bytes, Error>)
    requires |h.projectCommits| > 0
    ensures CommitForSlug(h, slug).Err? ==> r == Err(UnknownSlug(slug))
    ensures CommitForSlug(h, slug).Ok? && TopLevelDirectoryName(h).Err? ==> r == Err(TopLevelDirectoryName(h).error)
    ensures CommitForSlug(h, slug).Ok? && PythonCodePath(h).Ok? ==>
              r == ReadBlob(h.repo, CommitForSlug(h, slug).value.commit.tree, PythonCodePath(h).value)
    ensures r.Ok? ==> r.value in h.repo.blobs.Values
  {
    var pc :- CommitForSlug(h, slug);
    var path :- PythonCodePath(h);
    ReadBlob(h.repo, pc.commit.tree, path)
  }

  /** The code change of the commit a slug names. */
  function CodePatchForSlug(h: ProjectHistory, slug: string): (r: Result<CodeChange, Error>)
    ensures CommitForSlug(h, slug).Err? ==> r == Err(UnknownSlug(slug))
    ensures CommitForSlug(h, slug).Ok? && !ModifiesPythonCode(CommitForSlug(h, slug).value) ==>
              r == Err(NotPythonCodeChange(CommitForSlug(h, slug).value.oid))
    ensures CommitForSlug(h, slug).Ok? ==> r == CodePatchAgainstParent(h.repo, CommitForSlug(h, slug).value)
  {
    var pc :- CommitForSlug(h, slug);
    CodePatchAgainstParent(h.repo, pc)
  }

  /** A slug names the last commit carrying it, so its code is read from that
      commit's tree, in the directory named after the tip's sole entry: it is
      the `code.py` blob listed there, and is not found when that directory
      lists no such file. */
  lemma CodeTextFromTaggedCommit(h: ProjectHistory, i: int, slug: string, dir: TreeEntry, dirTree: Tree)
    requires LastWithSlug(h.projectCommits, i, slug)
    requires |h.projectCommits[0].commit.tree.entries| == 1
    requires Paths.IsComponent(h.projectCommits[0].commit.tree.entries[0].name)
    requires FindEntry(h.projectCommits[i].commit.tree.entries, h.projectCommits[0].commit.tree.entries[0].name) == Some(dir)
    requires dir.id in h.repo.trees && dirTree == h.repo.trees[dir.id]
    ensures FindEntry(dirTree.entries, CodeFileBasename).Some?
            && FindEntry(dirTree.entries, CodeFileBasename).value.id in h.repo.blobs ==>
              CodeTextFromSlug(h, slug) == Ok(h.repo.blobs[FindEntry(dirTree.entries, CodeFileBasename).value.id])
    ensures FindEntry(dirTree.entries, CodeFileBasename).None? ==>
              CodeTextFromSlug(h, slug) == Err(PathNotFound(h.projectCommits[0].commit.tree.entries[0].name + "/" + CodeFileBasename))
  {
    var d, tree := h.projectCommits[0].commit.tree.entries[0].name, h.projectCommits[i].commit.tree;
    assert FindEntry(tree.entries, d).Some? && FindEntry(tree.entries, d).value.id in h.repo.trees;
    assert Paths.IsComponent(CodeFileBasename);
    CodeTextReadsTaggedTree(h, i, slug);
    ReadBlobInDirectory(h.repo, tree, d, CodeFileBasename, dirTree);
  }

  /** A slug's code is read at the code path in the tree of the last commit
      carrying the slug. */
  lemma CodeTextReadsTaggedTree(h: ProjectHistory, i: int, slug: string)
    requires LastWithSlug(h.projectCommits, i, slug)
    requires |h.projectCommits[0].commit.tree.entries| == 1
    ensures CodeTextFromSlug(h, slug) ==
              ReadBlob(h.repo, h.projectCommits[i].commit.tree, h.projectCommits[0].commit.tree.entries[0].name + "/" + CodeFileBasename)
  {
    SlugNamesLastTaggedCommit(h, i, slug);
    assert PythonCodePath(h) == Ok(h.projectCommits[0].commit.tree.entries[0].name + "/" + CodeFileBasename);
  }

  /** The slug resolves to the last commit carrying it. */
  lemma SlugNamesLastTaggedCommit(h: ProjectHistory, i: int, slug: string)
    requires LastWithSlug(h.projectCommits, i, slug)
    ensures CommitForSlug(h, slug) == Ok(h.projectCommits[i])
  {
    assert Slug(h.projectCommits[i]) == Some(slug);
    var r := CommitForSlug(h, slug);
    var k :| LastWithSlug(h.projectCommits, k, slug) && r.value == h.projectCommits[k];
    if k != i {
      assert false;
    }
  }

  /** The patch a slug names is the code change of the last commit carrying
      the slug. */
  lemma CodePatchOfTaggedCommit(h: ProjectHistory, i: int, slug: string)
    requires LastWithSlug(h.projectCommits, i, slug)
    ensures CodePatchForSlug(h, slug) == CodePatchAgainstParent(h.repo, h.projectCommits[i])
  {
    SlugNamesLastTaggedCommit(h, i, slug);
  }
}

=== FILE: paths.dfy ===
/** Slash-separated paths as git reports them, and the two pieces of `pathlib`
    the tutorial history relies on: the `parts` of a path and its `name`. */
module Paths {

  /** The pieces of `s` between occurrences of `sep`, empty pieces included,
      as Python's `str.split(sep)` returns them. */
  function Split(s: string, sep: char): (r: seq<string>)
    ensures |r| > 0
    ensures forall i :: 0 <= i < |r| ==> sep !in r[i]
    ensures r[0] <= s
    ensures |r[0]| == |s| || s[|r[0]|] == sep
    decreases |s|
  {
    if |s| == 0 then [""]
    else
      var rest := Split(s[1..], sep);
      if s[0] == sep then [""] + rest
      else [[s[0]] + rest[0]] + rest[1..]
  }

  /** Python's `sep.join(pieces)`. */
  function Join(pieces: seq<string>, sep: char): string
    requires |pieces| > 0
  {
    if |pieces| == 1 then pieces[0] else pieces[0] + [sep] + Join(pieces[1..], sep)
  }

  /** Splitting and re-joining gives back the original text. */
  lemma {:induction false} JoinSplit(s: string, sep: char)
    ensures Join(Split(s, sep), sep) == s
    decreases |s|
  {
    if |s| > 0 {
      JoinSplit(s[1..], sep);
      var rest := Split(s[1..], sep);
      if s[0] == sep {
        assert Split(s, sep) == [""] + rest;
        assert s == [s[0]] + s[1..];
      } else {
        var r := Split(s, sep);
        assert r == [[s[0]] + rest[0]] + rest[1..];
        if |rest| == 1 {
          assert s == [s[0]] + s[1..];
        } else {
          assert r[1..] == rest[1..];
          assert Join(r, sep) == [s[0]] + rest[0] + [sep] + Join(rest[1..], sep);
          assert s == [s[0]] + s[1..];
        }
      }
    }
  }

  /** Text without a separator is a single piece. */
  lemma {:induction false} SplitWithoutSep(s: string, sep: char)
    requires sep !in s
    ensures Split(s, sep) == [s]
    decreases |s|
  {
    if |s| > 0 {
      assert sep !in s[1..] by {
        forall c | c in s[1..] ensures c != sep { assert c in s; }
      }
      SplitWithoutSep(s[1..], sep);
      assert s[0] != sep by { assert s[0] in s; }
      assert [s[0]] + s[1..] == s;
    }
  }

  /** A separator-free prefix followed by the separator is one piece. */
  lemma {:induction false} SplitAfterPiece(a: string, sep: char, b: string)
    requires sep !in a
    ensures Split(a + [sep] + b, sep) == [a] + Split(b, sep)
    decreases |a|
  {
    if |a| == 0 {
      assert a + [sep] + b == [sep] + b;
      assert ([sep] + b)[1..] == b;
    } else {
      assert sep !in a[1..] by {
        forall c | c in a[1..] ensures c != sep { assert c in a; }
      }
      SplitAfterPiece(a[1..], sep, b);
      assert (a + [sep] + b)[1..] == a[1..] + [sep] + b;
      assert [a[0]] + a[1..] == a;
    }
  }

  /** A single path component as `pathlib` keeps it: not empty, not `.`, no slash. */
  predicate IsComponent(c: string) {
    c != "" && c != "." && '/' !in c
  }

  /** The components `pathlib` keeps from a list of pieces: it collapses
      repeated slashes and drops `.` pieces. */
  function Components(pieces: seq<string>): (r: seq<string>)
    requires forall i :: 0 <= i < |pieces| ==> '/' !in pieces[i]
    ensures forall i :: 0 <= i < |r| ==> IsComponent(r[i])
    ensures |r| <= |pieces|
  {
    if |pieces| == 0 then []
    else if pieces[0] == "" || pieces[0] == "." then Components(pieces[1..])
    else [pieces[0]] + Components(pieces[1..])
  }

  /** `pathlib.Path(path).parts` for a relative path, the only kind git puts in a diff. */
  function Parts(path: string): (r: seq<string>)
    ensures forall i :: 0 <= i < |r| ==> IsComponent(r[i])
  {
    Components(Split(path, '/'))
  }

  /** `pathlib.Path(path).name`: the final component, or empty when there is none. */
  function BaseName(path: string): (r: string)
    ensures r == "" || IsComponent(r)
  {
    var p := Parts(path);
    if |p| == 0 then "" else p[|p| - 1]
  }

  /** A path built as `dir + "/" + file` from two components splits back into them. */
  lemma PartsOfChild(dir: string, file: string)
    requires IsComponent(dir) && IsComponent(file)
    ensures Parts(dir + "/" + file) == [dir, file]
    ensures BaseName(dir + "/" + file) == file
  {
    SplitAfterPiece(dir, '/', file);
    SplitWithoutSep(file, '/');
    assert dir + "/" + file == dir + ['/'] + file;
    assert Split(dir + "/" + file, '/') == [dir, file];
    assert [dir, file][1..] == [file];
    assert [file][1..] == [];
    assert Components([file]) == [file] + Components([]);
    assert Components([dir, file]) == [dir] + Components([file]);
  }
}

=== FILE: results.dfy ===
/** Failure-compatible wrappers used throughout the model: an optional value,
    and the result of an operation that can raise. */
module Results {

  datatype Option<+T> = None | Some(value: T)

  /** `Ok` carries the value an operation returns; `Err` the exception it raises. */
  datatype Result<+T, +E> = Ok(value: T) | Err(error: E) {

    predicate IsFailure() {
      Err?
    }

    function PropagateFailure<U>(): Result<U, E>
      requires Err?
    {
      Err(error)
    }

    function Extract(): T
      requires Ok?
    {
      value
    }
  }

  /** The concatenation of the values of `rs`, or the first error among them. */
  function Flatten<T, E>(rs: seq<Result<seq<T>, E>>): (r: Result<seq<T>, E>)
    ensures r.Ok? <==> forall i :: 0 <= i < |rs| ==> rs[i].Ok?
    ensures r.Err? ==> exists i :: 0 <= i < |rs| && rs[i] == Err(r.error)
                          && forall j :: 0 <= j < i ==> rs[j].Ok?
  {
    if |rs| == 0 then Ok([])
    else
      var first :- rs[0];
      var rest :- Flatten(rs[1..]);
      assert forall i :: 1 <= i < |rs| ==> rs[i] == rs[1..][i - 1];
      Ok(first + rest)
  }

  /** Flattening distributes over concatenation. */
  lemma {:induction false} FlattenAppend<T, E>(xs: seq<Result<seq<T>, E>>, ys: seq<Result<seq<T>, E>>)
    requires Flatten(xs).Ok? && Flatten(ys).Ok?
    ensures Flatten(xs + ys) == Ok(Flatten(xs).value + Flatten(ys).value)
    decreases |xs|
  {
    if |xs| == 0 {
      assert xs + ys == ys;
      var none: seq<T> := [];
      assert Flatten(xs) == Ok(none);
      assert none + Flatten(ys).value == Flatten(ys).value;
    } else {
      var zs := xs + ys;
      assert zs[1..] == xs[1..] + ys && zs[0] == xs[0];
      FlattenAppend(xs[1..], ys);
      var a := Flatten(xs[1..]).value;
      var b := Flatten(ys).value;
      assert xs[0].value + (a + b) == (xs[0].value + a) + b;
    }
  }

  /** A single result flattens to itself. */
  lemma FlattenSingle<T, E>(x: Result<seq<T>, E>)
    ensures Flatten([x]) == x
  {
    var none: seq<T> := [];
    if x.Ok? {
      assert Flatten([x][1..]) == Ok(none);
      assert x.value + none == x.value;
    }
  }
}
